=== FILE: README.md ===
# A verified model of the logic prover's solver

`src/logicSolver.js` is the engine of a small web app that searches for
natural-deduction proofs in propositional logic. The user types comma
separated premises and a conclusion, written with `~` (not), `>` (implies),
`v` (or) and `.` (and). The engine:

1. parses both texts into formula trees;
2. collects every subformula as a goal;
3. runs a depth-first search under iterative deepening, with depth bounds
   1 to 12, over a fixed set of replacement and inference rules;
4. returns the numbered proof lines or a failure message.

This project models that engine in Dafny and proves properties of the model:

- `Formula` (`formula.dfy`) holds the `Node` tree and `Node.equals`. It
  proves that `equals` coincides with structural equality. It also holds
  `Node.toString`, and a truth-value semantics that states soundness.
- `Parser` (`parser.dfy`) holds `clean` and the recursive-descent `parse`.
  Each branch of `parse` is characterised by balance-based reference
  definitions: which strings count as one parenthesised group, and where
  the rightmost connective at suffix balance zero sits (for a balanced
  string: the rightmost one outside every parenthesis). The module also
  proves exactly when `parse` returns `null`.
- `PrintParse` (`printparse.dfy`) proves the round trip:
  `parse(toString(f)) == f` for every complete tree whose atom symbols are
  printable.
- `Rules` (`rules.dfy`) gives each rule of `getReplacements` and `findPath`
  twice:
  - as a declarative schema, `Derives`, proved truth-preserving;
  - as the candidate lists the search enumerates, in source order, each
    proved to list exactly the schema instances.
- `Search` (`search.dfy`) holds `isKnown`, `collectGoals` and `findPath` as
  pure functions. `findPath` mutates its path in place, but it pops every
  failed branch, so the model builds each move list from the path as it
  was on entry.
  - A found path only ever adds admissible, new lines and contains the
    target.
  - Every line of a found path is true whenever the premises are.
- `Solver` (`solver.dfy`) holds `solveProof`: splitting at commas, the
  deepening loop, the two failure messages and the rendering of the proof
  lines.
- `Options` (`options.dfy`) holds the optional result of the search.

## Model

| member | source | states |
|---|---|---|
| Formula.Equals | src/logicSolver.js:11-19 | `equals` on a present node returns true exactly when the two trees are identical, so it is an equivalence |
| Formula.ToString | src/logicSolver.js:21-28 | no contract of its own: `PrintParse.RoundTrip` proves that parsing the printed form gives the tree back, and `PrintParse.CleanToString` that cleaning it leaves the compact form |
| Formula.ChildEquals | src/logicSolver.js:16-17 | comparing two child fields, where two nulls match, is exactly equality of the children |
| Parser.Clean | src/logicSolver.js:32-34 | the cleaned string contains no `\s` character and is no longer than the input |
| Parser.CleanKeepsClean | src/logicSolver.js:32-34 | cleaning a whitespace-free string leaves it unchanged, so cleaning is idempotent |
| Parser.CleanConcat | src/logicSolver.js:32-34 | cleaning distributes over concatenation |
| Parser.ParseCleaned | src/logicSolver.js:37-84 | the tree read from a cleaned string has no more nodes than the string has characters, and its atoms are nonempty and whitespace-free |
| Parser.ReturnsToZero | src/logicSolver.js:41-50 | no contract of its own: `Parser.ReturnsToZeroSpec` states it is the early-close test of the balance walk |
| Parser.Enclosed | src/logicSolver.js:41-50 | no contract of its own: `Parser.EnclosedSpec` states it holds exactly for a string wrapped in one parenthesis pair that never closes early |
| Parser.ParseIgnoresWhitespace | src/logicSolver.js:36-37 | parsing a string gives the same tree as parsing its cleaned form |
| Parser.Parse | src/logicSolver.js:36-85 | the tree has no more nodes than the cleaned input has characters, and every atom symbol is nonempty and whitespace-free |
| Parser.ParseMissingIff | src/logicSolver.js:36-50 | `parse` returns `null` exactly when the cleaned input is empty or is only nested empty parentheses such as `(())` |
| Parser.MissingComesFromNest | src/logicSolver.js:37-49 | an input that parses to `null` cleans to `n` nested empty pairs of parentheses, for some `n` |
| Parser.ReturnsToZeroSpec | src/logicSolver.js:42-48 | the left-to-right balance walk breaks out exactly when the balance returns to zero after some character strictly inside the string |
| Parser.EnclosedSpec | src/logicSolver.js:41-50 | the outer parentheses are stripped exactly when the string starts with `(`, ends with `)`, and the balance never closes early |
| Parser.ScanRight | src/logicSolver.js:56-69 | a right-to-left scan returns -1 or a position at or before its start whose character is a connective of its level; `ScanRightSound` and `ScanRightRightmost` pin which one |
| Parser.SplitIndex | src/logicSolver.js:52-70 | the split index is -1 or a position of the string holding a connective `>`, `v` or `.`; the `SplitAt` lemmas pin which one |
| Parser.ScanRightSound | src/logicSolver.js:56-60 | the right-to-left scan only stops at a character whose suffix has as many `(` as `)` |
| Parser.ScanRightRightmost | src/logicSolver.js:56-60 | the scan passes over no split point of its level |
| Parser.ScanFindsRightmost | src/logicSolver.js:52-70 | a scan over the whole string returns the rightmost connective of its level at suffix balance zero |
| Parser.ScanFindsNone | src/logicSolver.js:52-70 | with no such connective, the scan reports -1 |
| Parser.SplitAtConditional | src/logicSolver.js:52-60 | the split index is the rightmost `>` at suffix balance zero |
| Parser.SplitAtJunction | src/logicSolver.js:62-70 | when there is no `>` at suffix balance zero, the split index is the rightmost `v` or `.` at suffix balance zero |
| Parser.SplitIndexNone | src/logicSolver.js:52-70 | with no connective at suffix balance zero at either level there is no split index |
| Parser.ParseConditional | src/logicSolver.js:52-76 | a string that is not one group and has a `>` at suffix balance zero parses as an implication split at the rightmost such `>` |
| Parser.ParseJunction | src/logicSolver.js:62-76 | with no `>` at suffix balance zero, it splits at the rightmost `v` or `.` at suffix balance zero, into a disjunction or conjunction |
| Parser.ParseNegation | src/logicSolver.js:77-79 | with no split point, a leading `~` gives the negation of the parse of the rest |
| Parser.ParseAtomic | src/logicSolver.js:80-83 | otherwise the whole cleaned string becomes one atom, which `toString` prints back unchanged |
| Parser.NestBalanced | src/logicSolver.js:41-50 | nested empty parentheses are balanced and whitespace-free |
| Parser.ParseCleanedWrapped | src/logicSolver.js:41-49 | a balanced string inside one pair of parentheses parses as the string itself |
| PrintParse.CleanToString | src/logicSolver.js:21-34 | cleaning the printed form removes exactly the spaces around connectives |
| PrintParse.ParseCompact | src/logicSolver.js:36-85 | the parser reads back every compact printed formula as the formula itself |
| PrintParse.RoundTrip | src/logicSolver.js:21-85 | `parse(toString(f)) == f` for every tree without absent children whose atom symbols avoid whitespace and `( ) > v . ~` |
| PrintParse.JoinSplitPoints | src/logicSolver.js:25-27 | in a printed binary formula, the connective the printer places between the operands is the only one at suffix balance zero |
| PrintParse.OperandShape | src/logicSolver.js:23-26 | printed operands are balanced, whitespace-free, and have no connective outside their parentheses |
| Rules.GetReplacements | src/logicSolver.js:94-132 | the replacements of a present line are exactly its rewrites under DN (both ways), Comm, Impl (both ways) and DM; DN introduction is always among them; `null` has none |
| Rules.ReplacementsEquivalent | src/logicSolver.js:94-132 | every replacement has the same truth value as the original line under every valuation |
| Rules.DerivesSound | src/logicSolver.js:160-231 | every rule applied to well-formed lines yields a well-formed conclusion that is true whenever its source lines are |
| Rules.ReplMoves | src/logicSolver.js:160-168 | the replacement candidates of a line are exactly its `Repl` schema instances |
| Rules.SimpMoves | src/logicSolver.js:170-180 | a conjunction yields exactly its two conjuncts by `Simp`; no other line yields any |
| Rules.AddMoves | src/logicSolver.js:182-191 | the `Add` candidates are exactly the disjunctive goals that have the line as a disjunct |
| Rules.OneLineMoves | src/logicSolver.js:160-191 | the one-line candidates are exactly the one-line schema instances |
| Rules.MpMoves | src/logicSolver.js:199-200 | modus ponens fires exactly on `P > Q` with `P` and yields `Q` |
| Rules.MtMoves | src/logicSolver.js:202-205 | modus tollens fires exactly on `P > Q` with `~Q` and yields `~P` |
| Rules.DsMoves | src/logicSolver.js:207-211 | disjunctive syllogism yields exactly the disjunct whose partner is denied |
| Rules.HsMoves | src/logicSolver.js:213-216 | hypothetical syllogism chains `P > Q` and `Q > R` into exactly `P > R` |
| Rules.CdMoves | src/logicSolver.js:218-224 | constructive dilemma yields exactly `Q v S` from `(P > Q) . (R > S)` and `P v R` or `R v P` |
| Rules.ConjMoves | src/logicSolver.js:226-231 | the `Conj` candidates are exactly the conjunctive goals made of the two lines, in either order |
| Rules.TwoLineMoves | src/logicSolver.js:193-231 | the two-line candidates are exactly the two-line schema instances |
| Search.IsKnown | src/logicSolver.js:135-140 | `isKnown` holds exactly when some line of the path is the target |
| Search.CollectGoals | src/logicSolver.js:143-148 | the collected goals are exactly the subtrees of the formula, one per node, starting with the formula itself |
| Search.GoalList | src/logicSolver.js:260-262 | the goal list holds exactly the subformulas of the conclusion and of the premises |
| Search.Pairs | src/logicSolver.js:194-231 | the table entry for a pair of lines lists exactly the two-line schema instances from those lines |
| Search.PairMovesSpec | src/logicSolver.js:194-239 | the inner `j` loop proposes a step exactly when it cites line `i` first, a later-scanned line other than `i` second, and its candidate is in that pair's table entry |
| Search.PairMoves | src/logicSolver.js:194-240 | no contract of its own: `Search.PairMovesSpec` states exactly which steps the inner `j` loop proposes |
| Search.PairTableMove | src/logicSolver.js:194-231 | reading a two-line candidate out of the pair table is the same as that candidate being a schema instance from line `i` and the cited second line |
| Search.SingleMoves | src/logicSolver.js:160-191 | the one-line moves of line `i` are exactly the admissible one-line inferences citing it |
| Search.LineMoves | src/logicSolver.js:157-240 | the moves of one iteration of the `i` loop are exactly the admissible inferences citing line `i` first |
| Search.Moves | src/logicSolver.js:157-241 | the whole move list holds exactly the admissible inferences from the current path |
| Search.FindPath | src/logicSolver.js:150-243 | a known target returns the path unchanged. A found path extends the input by admissible, new lines, contains the target, and stays within the depth budget. Nothing is found only when the target is not yet known |
| Search.TryMoves | src/logicSolver.js:162-239 | trying the moves in order yields only continuations that extend the path by admissible, new lines, stay within the depth budget and reach the target |
| Search.TryMovesGivesUp | src/logicSolver.js:162-239 | the move loop returns nothing exactly when no move in the list is new and has a continuation, one level deeper, that finds the target |
| Search.ExtendsStep | src/logicSolver.js:233-239 | pushing an admissible new line and continuing from there still continues the original path |
| Search.ExtendsSound | src/logicSolver.js:150-243 | when the lines of a path are true under a valuation, so is every line of any continuation the search may build |
| Search.LineTrue | src/logicSolver.js:160-231 | a line inferred admissibly from true lines is true |
| Solver.Split | src/logicSolver.js:248 | splitting at commas gives at least one piece, none containing a comma, and the pieces joined with commas give back the text |
| Solver.SplitJoin | src/logicSolver.js:248 | splitting undoes joining comma-free pieces |
| Solver.Premises | src/logicSolver.js:248-253 | no contract of its own: `Solver.PremisesOfJoin`, `Solver.ParseSegmentsConcat` and `Solver.ParseSegmentsMembers` state that the premises are the trees of the comma segments, in text order |
| Solver.ParseSegments | src/logicSolver.js:250-253 | the premise list is no longer than the segment list; its partners `Solver.ParseSegmentsConcat` and `Solver.ParseSegmentsSingle` fix its value: each segment in text order contributes its tree, or nothing when it parses to `null`, duplicates kept |
| Solver.ParseSegmentsMembers | src/logicSolver.js:250-253 | the premises are exactly the segments that parse to a tree; there are none exactly when every segment parses to `null` |
| Solver.ParseSegmentsConcat | src/logicSolver.js:250-253 | the premise list of two runs of segments is the first run's premises followed by the second's, so text order and duplicates are kept |
| Solver.ParseSegmentsSingle | src/logicSolver.js:250-253 | one segment contributes its tree, or nothing when it parses to `null` |
| Solver.PremisesOfJoin | src/logicSolver.js:248-253 | a premise text made of comma-free segments joined by commas yields exactly those segments' trees, in order |
| Solver.PremiseSteps | src/logicSolver.js:250-253 | the initial path has one `Premise` line without references per premise, in order |
| Solver.FailsFromStep | src/logicSolver.js:265-267 | the depth loop fails from a bound exactly when that bound fails and every later bound up to 12 fails too |
| Solver.Deepen | src/logicSolver.js:264-267 | the deepening loop returns nothing exactly when every bound up to 12 fails. Otherwise it returns the path found by the smallest bound that succeeds. That proof extends the premises and contains the conclusion. A conclusion that is already a premise is returned at once |
| Solver.ProveFrom | src/logicSolver.js:264-267 | a proof starts with the premise lines, adds at most 12 admissible, new lines and contains the conclusion; no proof is reported exactly when every bound fails; a reported proof is the one the smallest successful bound from 1 finds |
| Solver.Solve | src/logicSolver.js:246-267 | the input is invalid exactly when no premise segment parses or the conclusion parses to nothing (it is empty, or only nested empty parentheses such as `()`); otherwise, when no parsed tree has an absent child, the search runs on the parsed input, else the outcome is `Unsupported` |
| Solver.SolveSound | src/logicSolver.js:246-267 | under every valuation making all premises true, the conclusion and every proof line are true |
| Solver.NatToString | src/logicSolver.js:274 | a line number prints as decimal digits without leading zero that denote the number |
| Solver.RefText | src/logicSolver.js:274 | the reference column is empty exactly for premises; otherwise it is `(a)` or `(a, b)` |
| Solver.Render | src/logicSolver.js:268-276 | line `k` of the output is numbered `k + 1` and shows the printed formula, the rule name and the reference text of step `k`, one output line per step |
| Solver.RefCites | src/logicSolver.js:274 | an inferred line citing one or two distinct lines among the first `k` shows `(a)` or `(a, b)` with those line numbers |
| Solver.RenderProved | src/logicSolver.js:268-276 | a rendered proof numbers its lines from 1 and shows the premises first with empty references. Each inferred line has a non-`Premise` rule and a reference `(a)` or `(a, b)` naming one or two distinct earlier lines. One line prints the conclusion |
| Solver.SolveProof | src/logicSolver.js:246-281 | the result is `Error: Invalid Input.` exactly on invalid input; the result is `Proof not found within search limits.` exactly when every depth bound fails, and a success exactly when the search finds a proof; a success is the rendering of the path `Solve` found, and is a rendered proof of the conclusion whose inferred lines cite earlier, distinct lines |
| Solver.SolveProofSound | src/logicSolver.js:246-276 | line `k` of a successful result prints the formula of step `k` of the path the search found, and under every valuation making all premises true that formula is true |

## Left out

- The React component `src/LogicProver.jsx` is not modelled: it is user interface. This includes the `setTimeout` around the call and its `catch`, which shows a generic message when `solveProof` throws.
- `globalGoals` is a module-level mutable list that `solveProof` resets and fills before the search. The model computes it with `GoalList` and passes it to the search as the parameter `goals`.
- `cloneNode` is not modelled: the trees are immutable values here, so a copy is the tree itself.
- Solver.Solve: on input where a parsed premise or the conclusion has an absent child, the outcome is `Unsupported` rather than a search run, because the source's behaviour there (an exception or an exhausted search) depends on `null` dereferences the model does not follow; see the next line.
- Solver.SolveProof: when a parsed premise or the conclusion has an absent child (for example `P >` or `~`), the source may throw. It throws in `toString`, or when `findPath` reads a field of a `null` child, and otherwise it exhausts the search. The model does not follow those paths: it reports `Aborted` for every such input, and `Solve` reports `Unsupported`.
- Rules.GetReplacements: requires a tree with no absent children below a present root. The source also runs on partial trees, where some branches dereference `null`.
- Search.FindPath: the contract states soundness, not completeness. It does not state that `None` means no sequence of admissible new lines within the budget reaches the target.
- JavaScript strings are sequences of UTF-16 code units, while a Dafny `char` is a Unicode scalar value. Characters outside the Basic Multilingual Plane count as one character here and two in the source.
- `\s` is modelled as the ECMAScript WhiteSpace and LineTerminator set, with the Unicode 15 space separators.
- `toString` parenthesises a negated operand unless it is an atom, so `~~P` prints as `~(~P)`.
- The depth limit is the constant 12 of the source. Running time is not modelled.

=== FILE: formula.dfy ===
/**
  Formula trees of the prover: the `Node` class of `src/logicSolver.js`,
  its structural `equals`, its canonical `toString`, and a truth-valuation
  semantics used to state soundness of the rule engine.
 */
module Formula {

  /** The three binary connectives. */
  datatype BinOp = Implies | Or | And

  /** The character the parser reads and the printer writes for a connective. */
  function Symbol(op: BinOp): char
  {
    match op
    case Implies => '>'
    case Or => 'v'
    case And => '.'
  }

  /**
    A formula tree. `Missing` is the absent child (`null`) that the parser
    leaves for an empty operand, as in the right side of `P>`.
   */
  datatype Node = Atom(value: string) | Not(arg: Node) | Bin(op: BinOp, left: Node, right: Node) | Missing

  /** A tree without absent children: every operator has all its operands. */
  predicate WellFormed(n: Node)
    ensures WellFormed(n) ==> !n.Missing?
  {
    match n
    case Atom(_) => true
    case Not(x) => WellFormed(x)
    case Bin(_, l, r) => WellFormed(l) && WellFormed(r)
    case Missing => false
  }

  /** Number of (present) nodes in a tree. */
  function Size(n: Node): nat
  {
    match n
    case Missing => 0
    case Atom(_) => 1
    case Not(x) => 1 + Size(x)
    case Bin(_, l, r) => 1 + Size(l) + Size(r)
  }

  /** The `op` field of a source node: "ATOM", "~" or the connective's symbol. */
  function OpName(n: Node): string
    requires !n.Missing?
  {
    match n
    case Atom(_) => "ATOM"
    case Not(_) => "~"
    case Bin(op, _, _) => [Symbol(op)]
  }

  /** The `left` field of a source node (`null` for an atom). */
  function LeftField(n: Node): (c: Node)
    ensures !n.Missing? ==> Size(c) < Size(n)
  {
    match n
    case Not(x) => x
    case Bin(_, l, _) => l
    case _ => Missing
  }

  /** The `right` field of a source node (`null` for an atom or a negation). */
  function RightField(n: Node): (c: Node)
    ensures !n.Missing? ==> Size(c) < Size(n)
  {
    match n
    case Bin(_, _, r) => r
    case _ => Missing
  }

  /**
    `Node.equals`: the operator names must agree; atoms compare their symbols;
    other nodes compare both child fields, where two absent children match.
    It coincides with structural equality of the trees, so it is reflexive,
    symmetric and transitive.
   */
  function Equals(a: Node, other: Node): (r: bool)
    requires !a.Missing?
    ensures r <==> a == other
    decreases Size(a), 0
  {
    if other.Missing? then false
    else if OpName(a) != OpName(other) then false
    else if a.Atom? then a.value == other.value
    else ChildEquals(LeftField(a), LeftField(other)) && ChildEquals(RightField(a), RightField(other))
  }

  /** The comparison of one pair of child fields inside `equals`. */
  function ChildEquals(x: Node, y: Node): (r: bool)
    ensures r <==> x == y
    decreases Size(x), 1
  {
    if !x.Missing? && !y.Missing? then Equals(x, y) else x == y
  }

  /**
    `Node.toString`: a negated operand is parenthesised unless it is an atom,
    a binary operand unless it is an atom or a negation; connectives are
    surrounded by single spaces.
   */
  function ToString(n: Node): string
    requires WellFormed(n)
  {
    match n
    case Atom(a) => a
    case Not(x) => "~" + (if x.Atom? then ToString(x) else "(" + ToString(x) + ")")
    case Bin(op, l, r) =>
      var ls := if l.Atom? || l.Not? then ToString(l) else "(" + ToString(l) + ")";
      var rs := if r.Atom? || r.Not? then ToString(r) else "(" + ToString(r) + ")";
      ls + " " + [Symbol(op)] + " " + rs
  }

  /** An assignment of truth values to atom symbols. */
  type Valuation = string -> bool

  /** Classical truth value of a formula under a valuation. */
  function Eval(f: Node, v: Valuation): bool
    requires WellFormed(f)
  {
    match f
    case Atom(a) => v(a)
    case Not(x) => !Eval(x, v)
    case Bin(op, l, r) =>
      match op
      case Implies => Eval(l, v) ==> Eval(r, v)
      case Or => Eval(l, v) || Eval(r, v)
      case And => Eval(l, v) && Eval(r, v)
  }

  /** Every formula of the list is free of absent children. */
  predicate AllWellFormed(fs: seq<Node>)
  {
    forall k :: 0 <= k < |fs| ==> WellFormed(fs[k])
  }

  /** Every formula of the list is true under the valuation. */
  predicate AllTrue(fs: seq<Node>, v: Valuation)
    requires AllWellFormed(fs)
  {
    forall k :: 0 <= k < |fs| ==> Eval(fs[k], v)
  }
}

=== FILE: options.dfy ===
/** The optional value the search returns: a proof path, or nothing. */
module Options {

  datatype Option<T> = None | Some(value: T)
}

=== FILE: parser.dfy ===
/**
  The string parser of `src/logicSolver.js` (`clean` and `parse`): recursive
  descent over a whitespace-free string. Outer parentheses are stripped when
  they enclose the whole string; otherwise the string is split at the
  rightmost `>` at suffix balance zero, or failing that at the rightmost `v`
  or `.` (one shared level); a leading `~` makes a negation; anything else is an
  atom whose symbol is the whole string.
 */
module Parser {
  import opened Formula

  /** JavaScript's `\s`: the ECMAScript WhiteSpace and LineTerminator code points. */
  predicate IsWhitespace(c: char)
  {
    || c == '\t' || c == '\n' || c == '\U{000B}' || c == '\U{000C}' || c == '\r' || c == ' '
    || c == '\U{00A0}' || c == '\U{1680}' || ('\U{2000}' <= c <= '\U{200A}')
    || c == '\U{2028}' || c == '\U{2029}' || c == '\U{202F}' || c == '\U{205F}'
    || c == '\U{3000}' || c == '\U{FEFF}'
  }

  predicate NoWhitespace(s: string)
  {
    forall i :: 0 <= i < |s| ==> !IsWhitespace(s[i])
  }

  /** `clean`: drop every whitespace character, keep the others in order. */
  function Clean(s: string): (r: string)
    ensures |r| <= |s|
    ensures NoWhitespace(r)
  {
    if s == [] then []
    else if IsWhitespace(s[0]) then Clean(s[1..])
    else [s[0]] + Clean(s[1..])
  }

  /** Contribution of a character to the parenthesis balance. */
  function Paren(c: char): int
  {
    if c == '(' then 1 else if c == ')' then -1 else 0
  }

  /** Opening minus closing parentheses in a string. */
  function Depth(s: string): int
  {
    if s == [] then 0 else Paren(s[0]) + Depth(s[1..])
  }

  /**
    The left-to-right walk of the outer-parenthesis check: true when, after
    some character at index `0 < i < |s| - 1`, the running balance is zero.
   */
  function ReturnsToZero(s: string, i: nat, bal: int): bool
    decreases |s| - i
  {
    if i + 1 >= |s| then false
    else
      var b := bal + Paren(s[i]);
      if b == 0 && i > 0 then true else ReturnsToZero(s, i + 1, b)
  }

  /** The string is one parenthesised group: `(` ... `)` closing only at the end. */
  predicate Enclosed(s: string)
  {
    |s| >= 2 && s[0] == '(' && s[|s| - 1] == ')' && !ReturnsToZero(s, 0, 0)
  }

  /** The two precedence levels the parser splits at. */
  datatype Level = Conditional | Junction

  predicate AtLevel(level: Level, c: char)
  {
    match level
    case Conditional => c == '>'
    case Junction => c == 'v' || c == '.'
  }

  predicate IsOpChar(c: char)
  {
    c == '>' || c == 'v' || c == '.'
  }

  /**
    The right-to-left walk looking for a split character: `bal` counts
    closing minus opening parentheses seen so far (the current character
    included); the first character of the level met at balance zero wins.
   */
  function ScanRight(s: string, i: int, bal: int, level: Level): (k: int)
    requires -1 <= i < |s|
    ensures -1 <= k <= i
    ensures k >= 0 ==> AtLevel(level, s[k])
    decreases i + 1
  {
    if i < 0 then -1
    else
      var b := bal - Paren(s[i]);
      if b == 0 && AtLevel(level, s[i]) then i else ScanRight(s, i - 1, b, level)
  }

  /** Index of the split character, or -1: implication first, then `v`/`.`. */
  function SplitIndex(s: string): (k: int)
    ensures -1 <= k < |s|
    ensures k >= 0 ==> IsOpChar(s[k])
  {
    var k := ScanRight(s, |s| - 1, 0, Conditional);
    if k != -1 then k else ScanRight(s, |s| - 1, 0, Junction)
  }

  function OpOf(c: char): BinOp
    requires IsOpChar(c)
  {
    if c == '>' then Implies else if c == 'v' then Or else And
  }

  /** Every atom of the tree has a nonempty, whitespace-free symbol. */
  predicate AtomsClean(n: Node)
  {
    match n
    case Atom(a) => |a| > 0 && NoWhitespace(a)
    case Not(x) => AtomsClean(x)
    case Bin(_, l, r) => AtomsClean(l) && AtomsClean(r)
    case Missing => true
  }

  /**
    `parse`: clean the input, then parse the cleaned string. Every present
    node of the result consumes at least one character of the cleaned input,
    and atoms get nonempty, whitespace-free symbols.
   */
  function Parse(s: string): (r: Node)
    ensures Size(r) <= |Clean(s)|
    ensures AtomsClean(r)
    decreases |s|, 1
  {
    ParseCleaned(Clean(s))
  }

  /** The body of `parse` after `clean`; operands go back through `parse`. */
  function ParseCleaned(t: string): (r: Node)
    requires NoWhitespace(t)
    ensures Size(r) <= |t|
    ensures AtomsClean(r)
    decreases |t|, 0
  {
    if t == [] then Missing
    else if Enclosed(t) then Parse(t[1..|t| - 1])
    else
      var k := SplitIndex(t);
      if k >= 0 then Bin(OpOf(t[k]), Parse(t[..k]), Parse(t[k + 1..]))
      else if t[0] == '~' then Not(Parse(t[1..]))
      else Atom(t)
  }

  // ---------------------------------------------------------------------
  // Whitespace removal
  // ---------------------------------------------------------------------

  /** `clean` leaves a whitespace-free string unchanged. */
  lemma {:induction false} CleanKeepsClean(s: string)
    requires NoWhitespace(s)
    ensures Clean(s) == s
  {
    if s != [] {
      CleanKeepsClean(s[1..]);
    }
  }

  /** `clean` works piecewise: it distributes over concatenation. */
  lemma {:induction false} CleanConcat(a: string, b: string)
    ensures Clean(a + b) == Clean(a) + Clean(b)
  {
    if a == [] {
      assert a + b == b;
    } else {
      assert (a + b)[1..] == a[1..] + b;
      CleanConcat(a[1..], b);
    }
  }

  /** A string made only of whitespace cleans to the empty string. */
  lemma {:induction false} CleanBlank(s: string)
    requires forall i :: 0 <= i < |s| ==> IsWhitespace(s[i])
    ensures Clean(s) == []
  {
    if s != [] {
      CleanBlank(s[1..]);
    }
  }

  /** Parsing ignores whitespace: the recursion re-cleans what is already clean. */
  lemma ParseIgnoresWhitespace(s: string)
    ensures Parse(s) == Parse(Clean(s))
  {
    CleanKeepsClean(Clean(s));
  }

  // ---------------------------------------------------------------------
  // Parenthesis balance
  // ---------------------------------------------------------------------

  lemma {:induction false} DepthConcat(a: string, b: string)
    ensures Depth(a + b) == Depth(a) + Depth(b)
  {
    if a == [] {
      assert a + b == b;
    } else {
      assert (a + b)[1..] == a[1..] + b;
      DepthConcat(a[1..], b);
    }
  }

  lemma DepthSplit(s: string, k: nat)
    requires k <= |s|
    ensures Depth(s) == Depth(s[..k]) + Depth(s[k..])
  {
    assert s == s[..k] + s[k..];
    DepthConcat(s[..k], s[k..]);
  }

  lemma DepthSuffixStep(s: string, i: nat)
    requires i < |s|
    ensures Depth(s[i..]) == Paren(s[i]) + Depth(s[i + 1..])
  {
    assert s[i..][1..] == s[i + 1..];
  }

  lemma DepthPrefixStep(s: string, i: nat)
    requires i < |s|
    ensures Depth(s[..i + 1]) == Depth(s[..i]) + Paren(s[i])
  {
    assert s[..i + 1] == s[..i] + [s[i]];
    DepthConcat(s[..i], [s[i]]);
    assert [s[i]][1..] == [];
  }

  lemma {:induction false} DepthNoParens(s: string)
    requires forall i :: 0 <= i < |s| ==> s[i] != '(' && s[i] != ')'
    ensures Depth(s) == 0
  {
    if s != [] {
      DepthNoParens(s[1..]);
    }
  }

  /** The balance returns to zero right after index `k`, strictly inside `s`. */
  ghost predicate ClosesAt(s: string, k: int)
  {
    0 < k < |s| - 1 && Depth(s[..k + 1]) == 0
  }

  /** The left-to-right walk finds exactly the places where the balance closes early. */
  lemma {:induction false} ReturnsToZeroSpec(s: string, i: nat, bal: int)
    requires i <= |s| && bal == Depth(s[..i])
    ensures ReturnsToZero(s, i, bal) <==> exists k :: i <= k && ClosesAt(s, k)
    decreases |s| - i
  {
    if i + 1 < |s| {
      var b := bal + Paren(s[i]);
      DepthPrefixStep(s, i);
      assert b == Depth(s[..i + 1]);
      if b == 0 && i > 0 {
        assert ClosesAt(s, i);
      } else {
        assert !ClosesAt(s, i);
        ReturnsToZeroSpec(s, i + 1, b);
        assert ReturnsToZero(s, i, bal) == ReturnsToZero(s, i + 1, b);
        if ReturnsToZero(s, i + 1, b) {
          var k :| i + 1 <= k && ClosesAt(s, k);
          assert i <= k && ClosesAt(s, k);
        } else {
          forall k | i <= k && ClosesAt(s, k)
            ensures false
          {
          }
        }
      }
    } else {
      forall k | i <= k && ClosesAt(s, k)
        ensures false
      {
      }
    }
  }

  /**
    The outer-parenthesis check, stated on balances: the string is enclosed
    exactly when it starts with `(`, ends with `)`, and the balance after
    no character strictly inside it is zero.
   */
  lemma EnclosedSpec(s: string)
    ensures Enclosed(s) <==>
      |s| >= 2 && s[0] == '(' && s[|s| - 1] == ')' && forall k :: !ClosesAt(s, k)
  {
    assert s[..0] == [];
    ReturnsToZeroSpec(s, 0, 0);
  }

  /**
    A split point of a level: a character of that level whose suffix (the
    character included) has as many `(` as `)`, that is, one at suffix
    balance zero. In a balanced string these are the characters outside
    every parenthesis; in an unbalanced one such as `(P>Q` the `>` is one too.
   */
  ghost predicate IsSplitPoint(s: string, k: int, level: Level)
  {
    0 <= k < |s| && AtLevel(level, s[k]) && Depth(s[k..]) == 0
  }

  /** The right-to-left walk from `i` only stops at a split point. */
  lemma {:induction false} ScanRightSound(s: string, i: int, bal: int, level: Level)
    requires -1 <= i < |s|
    requires bal == -Depth(s[i + 1..])
    ensures var k := ScanRight(s, i, bal, level); k >= 0 ==> Depth(s[k..]) == 0
    decreases i + 1
  {
    if i >= 0 {
      var b := bal - Paren(s[i]);
      DepthSuffixStep(s, i);
      if !(b == 0 && AtLevel(level, s[i])) {
        assert s[(i - 1) + 1..] == s[i..];
        ScanRightSound(s, i - 1, b, level);
      }
    }
  }

  /** The right-to-left walk from `i` passes over no split point. */
  lemma {:induction false} ScanRightRightmost(s: string, i: int, bal: int, level: Level)
    requires -1 <= i < |s|
    requires bal == -Depth(s[i + 1..])
    ensures forall m :: ScanRight(s, i, bal, level) < m <= i ==> !IsSplitPoint(s, m, level)
    decreases i + 1
  {
    if i >= 0 {
      var b := bal - Paren(s[i]);
      DepthSuffixStep(s, i);
      if !(b == 0 && AtLevel(level, s[i])) {
        assert !IsSplitPoint(s, i, level);
        assert s[(i - 1) + 1..] == s[i..];
        ScanRightRightmost(s, i - 1, b, level);
      }
    }
  }

  /** The scan of the whole string returns the rightmost split point, if any. */
  lemma ScanFindsRightmost(s: string, m: int, level: Level)
    requires IsSplitPoint(s, m, level)
    requires forall m' :: m < m' < |s| ==> !IsSplitPoint(s, m', level)
    ensures ScanRight(s, |s| - 1, 0, level) == m
  {
    var k := ScanRight(s, |s| - 1, 0, level);
    assert s[|s|..] == [];
    ScanRightSound(s, |s| - 1, 0, level);
    ScanRightRightmost(s, |s| - 1, 0, level);
    assert k >= m;
    assert IsSplitPoint(s, k, level);
  }

  /** With no split point the scan reports -1. */
  lemma ScanFindsNone(s: string, level: Level)
    requires forall m :: 0 <= m < |s| ==> !IsSplitPoint(s, m, level)
    ensures ScanRight(s, |s| - 1, 0, level) == -1
  {
    var k := ScanRight(s, |s| - 1, 0, level);
    assert s[|s|..] == [];
    ScanRightSound(s, |s| - 1, 0, level);
    assert k >= 0 ==> IsSplitPoint(s, k, level);
  }

  // ---------------------------------------------------------------------
  // What parse builds
  // ---------------------------------------------------------------------

  /** `n` nested pairs of empty parentheses: `((...))`. */
  function Nest(n: nat): (r: string)
    ensures |r| == 2 * n
  {
    seq(n, _ => '(') + seq(n, _ => ')')
  }

  /** One more pair of parentheses around `n` nested pairs. */
  lemma NestStep(n: nat)
    requires n > 0
    ensures Nest(n) == "(" + Nest(n - 1) + ")"
  {
    var a, b, c := Nest(n), Nest(n - 1), "(" + Nest(n - 1) + ")";
    forall i | 0 <= i < |a|
      ensures a[i] == c[i]
    {
      if 0 < i < |a| - 1 {
        assert c[i] == b[i - 1];
      }
    }
  }

  /** A parenthesis-balanced string: total balance zero, no suffix with more `(` than `)`. */
  ghost predicate Balanced(s: string)
  {
    Depth(s) == 0 && forall j :: 0 <= j <= |s| ==> Depth(s[j..]) <= 0
  }

  /** Wrapping a balanced string in parentheses gives a balanced, enclosed string. */
  lemma WrapBalanced(c: string)
    requires Balanced(c)
    ensures Balanced("(" + c + ")")
    ensures Enclosed("(" + c + ")")
  {
    var w := "(" + c + ")";
    forall j | 0 <= j <= |w|
      ensures Depth(w[j..]) <= 0
    {
      if j == 0 {
        WrapDepth(c);
        assert w[j..] == w;
      } else if j < |w| {
        WrapSuffixDepth(c, j - 1);
      } else {
        assert w[j..] == [];
      }
    }
    WrapDepth(c);
    WrapNeverCloses(c);
    EnclosedSpec(w);
  }

  lemma WrapDepth(c: string)
    requires Depth(c) == 0
    ensures Depth("(" + c + ")") == 0
  {
    DepthConcat("(", c);
    DepthConcat("(" + c, ")");
  }

  /** Inside a wrapped balanced string every suffix has more `)` than `(`. */
  lemma WrapSuffixDepth(c: string, j: nat)
    requires Balanced(c) && j <= |c|
    ensures Depth(("(" + c + ")")[j + 1..]) < 0
  {
    assert ("(" + c + ")")[j + 1..] == c[j..] + ")";
    DepthConcat(c[j..], ")");
    assert Depth(c[j..]) <= 0;
    assert Depth(")") == -1;
  }

  /** The balance of a wrapped balanced string stays positive until its last character. */
  lemma WrapNeverCloses(c: string)
    requires Balanced(c)
    ensures forall k :: !ClosesAt("(" + c + ")", k)
  {
    var w := "(" + c + ")";
    forall k | 0 < k < |w| - 1
      ensures !ClosesAt(w, k)
    {
      assert w[..k + 1] == "(" + c[..k];
      DepthConcat("(", c[..k]);
      DepthSplit(c, k);
    }
  }

  lemma WrapNoWhitespace(c: string)
    requires NoWhitespace(c)
    ensures NoWhitespace("(" + c + ")")
  {
    var w := "(" + c + ")";
    forall i | 0 <= i < |w|
      ensures !IsWhitespace(w[i])
    {
      if 0 < i <= |c| {
        assert w[i] == c[i - 1];
      }
    }
  }

  lemma {:induction false} NestBalanced(n: nat)
    ensures Balanced(Nest(n)) && NoWhitespace(Nest(n))
  {
    if n > 0 {
      var c := Nest(n - 1);
      NestBalanced(n - 1);
      NestStep(n);
      WrapBalanced(c);
      WrapNoWhitespace(c);
    } else {
      assert Nest(0)[0..] == [];
    }
  }

  /**
    `parse` yields `null` exactly when the cleaned input is empty or is
    nested parentheses around nothing, such as `()` or `(())`.
   */
  lemma ParseMissingIff(s: string)
    ensures Parse(s).Missing? <==> exists n: nat :: Clean(s) == Nest(n)
  {
    if Parse(s).Missing? {
      var n := MissingComesFromNest(s);
    } else {
      forall n: nat | Clean(s) == Nest(n)
        ensures false
      {
        NestParsesToMissing(s, n);
      }
    }
  }

  lemma {:induction false} MissingComesFromNest(s: string) returns (n: nat)
    requires Parse(s).Missing?
    ensures Clean(s) == Nest(n)
    decreases |s|
  {
    var t := Clean(s);
    assert Parse(s) == ParseCleaned(t);
    if t == [] {
      n := 0;
      assert Nest(0) == [];
    } else {
      var inner := CleanedMissingIsWrapped(t);
      var m := MissingComesFromNest(inner);
      CleanKeepsClean(inner);
      n := m + 1;
      NestStep(n);
    }
  }

  /** A nonempty cleaned string that parses to `null` is `(` + a string parsing to `null` + `)`. */
  lemma CleanedMissingIsWrapped(t: string) returns (inner: string)
    requires NoWhitespace(t) && t != [] && ParseCleaned(t).Missing?
    ensures t == "(" + inner + ")" && |inner| < |t|
    ensures NoWhitespace(inner) && Parse(inner).Missing?
  {
    assert Enclosed(t);
    inner := t[1..|t| - 1];
    assert t == "(" + inner + ")";
  }

  lemma NestParsesToMissing(s: string, n: nat)
    requires Clean(s) == Nest(n)
    ensures Parse(s).Missing?
  {
    NestCleanedMissing(n);
  }

  lemma {:induction false} NestCleanedMissing(n: nat)
    ensures NoWhitespace(Nest(n)) && ParseCleaned(Nest(n)).Missing?
  {
    if n > 0 {
      NestBalanced(n - 1);
      NestCleanedMissing(n - 1);
      WrappedMissing(Nest(n - 1));
      NestStep(n);
    } else {
      assert Nest(n) == [];
    }
  }

  lemma WrappedMissing(c: string)
    requires Balanced(c) && NoWhitespace(c) && ParseCleaned(c).Missing?
    ensures NoWhitespace("(" + c + ")") && ParseCleaned("(" + c + ")").Missing?
  {
    ParseCleanedWrapped(c);
    ParseOfClean(c);
  }

  /** A balanced string in parentheses parses, after `clean`, as the string itself. */
  lemma ParseCleanedWrapped(c: string)
    requires Balanced(c) && NoWhitespace(c)
    ensures NoWhitespace("(" + c + ")") && ParseCleaned("(" + c + ")") == Parse(c)
  {
    var w := "(" + c + ")";
    WrapBalanced(c);
    WrapNoWhitespace(c);
    ParseCleanedEnclosed(w);
    assert w[1..|w| - 1] == c;
  }

  /** On a whitespace-free string `parse` is its body. */
  lemma ParseOfClean(t: string)
    requires NoWhitespace(t)
    ensures Parse(t) == ParseCleaned(t)
  {
    CleanKeepsClean(t);
  }

  /*
    Unfolding steps. `ParseUnfold` and the `ParseCleaned*` lemmas below each
    state one branch of `Parse` or `ParseCleaned` on its own, so that the
    lemmas using them need not unfold the whole recursive definition.
   */

  /** An enclosed string parses as its interior. */
  lemma ParseCleanedEnclosed(t: string)
    requires NoWhitespace(t) && Enclosed(t)
    ensures ParseCleaned(t) == Parse(t[1..|t| - 1])
  {
  }

  /** `parse` cleans first and then reads the cleaned string. */
  lemma ParseUnfold(s: string)
    ensures Parse(s) == ParseCleaned(Clean(s))
  {
  }

  /** A split point found: a binary node over both sides. */
  lemma ParseCleanedSplit(t: string)
    requires NoWhitespace(t) && t != [] && !Enclosed(t) && SplitIndex(t) >= 0
    ensures ParseCleaned(t) == Bin(OpOf(t[SplitIndex(t)]), Parse(t[..SplitIndex(t)]), Parse(t[SplitIndex(t) + 1..]))
  {
  }

  /** No split point and a leading `~`: a negation of the rest. */
  lemma ParseCleanedNegation(t: string)
    requires NoWhitespace(t) && t != [] && !Enclosed(t) && SplitIndex(t) == -1 && t[0] == '~'
    ensures ParseCleaned(t) == Not(Parse(t[1..]))
  {
  }

  /** No split point and no leading `~`: the whole string is one atom. */
  lemma ParseCleanedAtom(t: string)
    requires NoWhitespace(t) && t != [] && !Enclosed(t) && SplitIndex(t) == -1 && t[0] != '~'
    ensures ParseCleaned(t) == Atom(t)
  {
  }

  /** The rightmost `>` at suffix balance zero is where the parser splits. */
  lemma SplitAtConditional(t: string, k: nat)
    requires IsSplitPoint(t, k, Conditional)
    requires forall m :: k < m < |t| ==> !IsSplitPoint(t, m, Conditional)
    ensures SplitIndex(t) == k
  {
    ScanFindsRightmost(t, k, Conditional);
  }

  /** With no `>` at suffix balance zero, the rightmost `v` or `.` at suffix balance zero is where the parser splits. */
  lemma SplitAtJunction(t: string, k: nat)
    requires forall m :: 0 <= m < |t| ==> !IsSplitPoint(t, m, Conditional)
    requires IsSplitPoint(t, k, Junction)
    requires forall m :: k < m < |t| ==> !IsSplitPoint(t, m, Junction)
    ensures SplitIndex(t) == k
  {
    ScanFindsNone(t, Conditional);
    ScanFindsRightmost(t, k, Junction);
  }

  /** With no split point at either level the scan reports none. */
  lemma SplitIndexNone(t: string)
    requires forall k :: 0 <= k < |t| ==> !IsSplitPoint(t, k, Conditional) && !IsSplitPoint(t, k, Junction)
    ensures SplitIndex(t) == -1
  {
    ScanFindsNone(t, Conditional);
    ScanFindsNone(t, Junction);
  }

  /**
    A cleaned input that is not one parenthesised group, has no split point
    at either level and does not start with `~` becomes an atom holding the
    whole cleaned string, which `toString` prints back unchanged.
   */
  lemma ParseAtomic(s: string)
    requires Clean(s) != [] && !Enclosed(Clean(s)) && Clean(s)[0] != '~'
    requires forall k :: 0 <= k < |Clean(s)| ==>
      !IsSplitPoint(Clean(s), k, Conditional) && !IsSplitPoint(Clean(s), k, Junction)
    ensures Parse(s) == Atom(Clean(s))
    ensures ToString(Parse(s)) == Clean(s)
  {
    var t := Clean(s);
    ParseUnfold(s);
    SplitIndexNone(t);
    ParseCleanedAtom(t);
  }

  /**
    A cleaned input that is not one parenthesised group and has a `>`
    at suffix balance zero is an implication split at the rightmost such `>`.
   */
  lemma ParseConditional(s: string, k: nat)
    requires Clean(s) != [] && !Enclosed(Clean(s))
    requires IsSplitPoint(Clean(s), k, Conditional)
    requires forall m :: k < m < |Clean(s)| ==> !IsSplitPoint(Clean(s), m, Conditional)
    ensures Parse(s) == Bin(Implies, Parse(Clean(s)[..k]), Parse(Clean(s)[k + 1..]))
  {
    var t := Clean(s);
    ParseUnfold(s);
    SplitAtConditional(t, k);
    assert OpOf(t[k]) == Implies;
    ParseCleanedSplit(t);
  }

  /**
    Only when there is no `>` at suffix balance zero does the parser split at
    the rightmost `v` or `.` at suffix balance zero, whichever comes last.
   */
  lemma ParseJunction(s: string, k: nat)
    requires Clean(s) != [] && !Enclosed(Clean(s))
    requires forall m :: 0 <= m < |Clean(s)| ==> !IsSplitPoint(Clean(s), m, Conditional)
    requires IsSplitPoint(Clean(s), k, Junction)
    requires forall m :: k < m < |Clean(s)| ==> !IsSplitPoint(Clean(s), m, Junction)
    ensures Parse(s) == Bin(if Clean(s)[k] == 'v' then Or else And, Parse(Clean(s)[..k]), Parse(Clean(s)[k + 1..]))
  {
    var t := Clean(s);
    ParseUnfold(s);
    SplitAtJunction(t, k);
    assert OpOf(t[k]) == if t[k] == 'v' then Or else And;
    ParseCleanedSplit(t);
  }

  /** With no split point, a leading `~` negates the parse of the rest. */
  lemma ParseNegation(s: string)
    requires Clean(s) != [] && !Enclosed(Clean(s)) && Clean(s)[0] == '~'
    requires forall k :: 0 <= k < |Clean(s)| ==>
      !IsSplitPoint(Clean(s), k, Conditional) && !IsSplitPoint(Clean(s), k, Junction)
    ensures Parse(s) == Not(Parse(Clean(s)[1..]))
  {
    var t := Clean(s);
    ParseUnfold(s);
    SplitIndexNone(t);
    ParseCleanedNegation(t);
  }
}

=== FILE: printparse.dfy ===
/**
  Printing then parsing gives back the formula: for a tree without absent
  children whose atom symbols are nonempty and avoid whitespace and the
  characters `( ) > v . ~`, `parse(toString(f))` equals `f`.

  The proof works on `Compact(f)`, the printed string with the spaces
  removed, and tracks two facts about it: its parentheses are balanced, and
  an operand printed in operand position has no connective outside its
  parentheses, so the parser's scans find exactly the connective the
  printer placed between the operands.
 */
module PrintParse {
  import opened Formula
  import opened Parser

  /** A character an atom symbol may hold and still print unambiguously. */
  predicate IsSymbolChar(c: char)
  {
    !IsWhitespace(c) && c != '(' && c != ')' && !IsOpChar(c) && c != '~'
  }

  predicate IsSymbol(a: string)
  {
    |a| > 0 && forall i :: 0 <= i < |a| ==> IsSymbolChar(a[i])
  }

  /** Every atom of the tree has a printable symbol. */
  predicate AtomsPrintable(f: Node)
  {
    match f
    case Atom(a) => IsSymbol(a)
    case Not(x) => AtomsPrintable(x)
    case Bin(_, l, r) => AtomsPrintable(l) && AtomsPrintable(r)
    case Missing => true
  }

  /** `toString` without the spaces around connectives. */
  ghost function Compact(f: Node): string
    requires WellFormed(f)
    decreases f, 0
  {
    match f
    case Atom(a) => a
    case Not(x) => "~" + NotOperand(x)
    case Bin(op, l, r) => BinOperand(l) + [Symbol(op)] + BinOperand(r)
  }

  /** How a negated operand is printed: parenthesised unless it is an atom. */
  ghost function NotOperand(x: Node): string
    requires WellFormed(x)
    decreases x, 1
  {
    if x.Atom? then Compact(x) else "(" + Compact(x) + ")"
  }

  /** How a binary operand is printed: parenthesised unless it is an atom or a negation. */
  ghost function BinOperand(x: Node): string
    requires WellFormed(x)
    decreases x, 1
  {
    if x.Atom? || x.Not? then Compact(x) else "(" + Compact(x) + ")"
  }

  /** No connective of the string lies outside its parentheses. */
  ghost predicate NoTopOp(u: string)
  {
    forall k :: 0 <= k < |u| && IsOpChar(u[k]) ==> Depth(u[k..]) != 0
  }

  // ---------------------------------------------------------------------
  // Removing the spaces
  // ---------------------------------------------------------------------

  lemma CleanSymbol(a: string)
    requires IsSymbol(a)
    ensures Clean(a) == a
  {
    CleanKeepsClean(a);
  }

  lemma CleanWrapped(s: string, c: string)
    requires Clean(s) == c
    ensures Clean("(" + s + ")") == "(" + c + ")"
  {
    CleanConcat("(", s);
    CleanConcat("(" + s, ")");
  }

  lemma CleanOptionalParens(bare: bool, s: string)
    ensures Clean(if bare then s else "(" + s + ")") == if bare then Clean(s) else "(" + Clean(s) + ")"
  {
    if !bare {
      CleanWrapped(s, Clean(s));
    }
  }

  /** Cleaning `ls + " " + s + " " + rs` drops the two spaces around the connective. */
  lemma CleanJoin(ls: string, s: char, rs: string)
    requires !IsWhitespace(s)
    ensures Clean(ls + " " + [s] + " " + rs) == Clean(ls) + [s] + Clean(rs)
  {
    CleanConcat(ls, " ");
    CleanConcat(ls + " ", [s]);
    CleanConcat(ls + " " + [s], " ");
    CleanConcat(ls + " " + [s] + " ", rs);
    assert Clean(" ") == [];
    assert Clean([s]) == [s];
  }

  /** Cleaning the printed form of a formula gives its compact form. */
  lemma {:induction false} CleanToString(f: Node)
    requires WellFormed(f) && AtomsPrintable(f)
    ensures Clean(ToString(f)) == Compact(f)
    decreases f
  {
    match f
    case Atom(a) =>
      CleanSymbol(a);
    case Not(x) =>
      CleanToString(x);
      CleanNotCase(x);
    case Bin(op, l, r) =>
      CleanToString(l);
      CleanToString(r);
      CleanBinCase(op, l, r);
  }

  lemma CleanNotCase(x: Node)
    requires WellFormed(x) && Clean(ToString(x)) == Compact(x)
    ensures Clean(ToString(Not(x))) == Compact(Not(x))
  {
    var u := if x.Atom? then ToString(x) else "(" + ToString(x) + ")";
    assert ToString(Not(x)) == "~" + u;
    CleanOptionalParens(x.Atom?, ToString(x));
    assert Clean(u) == NotOperand(x);
    CleanConcat("~", u);
    assert Clean("~") == "~";
  }

  lemma CleanBinCase(op: BinOp, l: Node, r: Node)
    requires WellFormed(l) && Clean(ToString(l)) == Compact(l)
    requires WellFormed(r) && Clean(ToString(r)) == Compact(r)
    ensures Clean(ToString(Bin(op, l, r))) == Compact(Bin(op, l, r))
  {
    var ls := if l.Atom? || l.Not? then ToString(l) else "(" + ToString(l) + ")";
    var rs := if r.Atom? || r.Not? then ToString(r) else "(" + ToString(r) + ")";
    assert ToString(Bin(op, l, r)) == ls + " " + [Symbol(op)] + " " + rs;
    CleanOptionalParens(l.Atom? || l.Not?, ToString(l));
    CleanOptionalParens(r.Atom? || r.Not?, ToString(r));
    assert Clean(ls) == BinOperand(l);
    assert Clean(rs) == BinOperand(r);
    CleanJoin(ls, Symbol(op), rs);
  }

  // ---------------------------------------------------------------------
  // Shapes of printed strings
  // ---------------------------------------------------------------------

  lemma SymbolShape(a: string)
    requires IsSymbol(a)
    ensures Balanced(a) && NoTopOp(a) && NoWhitespace(a)
  {
    forall j | 0 <= j <= |a|
      ensures Depth(a[j..]) == 0
    {
      DepthNoParens(a[j..]);
    }
  }

  lemma TildeShape(u: string)
    requires Balanced(u) && NoTopOp(u) && NoWhitespace(u)
    ensures Balanced("~" + u) && NoTopOp("~" + u) && NoWhitespace("~" + u)
  {
    var t := "~" + u;
    DepthConcat("~", u);
    forall j | 1 <= j <= |t|
      ensures t[j..] == u[j - 1..]
    {
    }
    assert t[0..] == t;
  }

  lemma WrapShape(c: string)
    requires Balanced(c) && NoWhitespace(c)
    ensures Balanced("(" + c + ")") && NoTopOp("(" + c + ")") && NoWhitespace("(" + c + ")")
    ensures Enclosed("(" + c + ")")
  {
    WrapBalanced(c);
    WrapNoTopOp(c);
    WrapNoWhitespace(c);
  }


  lemma WrapNoTopOp(c: string)
    requires Balanced(c)
    ensures NoTopOp("(" + c + ")")
  {
    var w := "(" + c + ")";
    forall k | 0 <= k < |w| && IsOpChar(w[k])
      ensures Depth(w[k..]) != 0
    {
      assert k != 0 && k != |w| - 1;
      WrapSuffixDepth(c, k - 1);
    }
  }

  lemma BalancedJoin(a: string, s: char, b: string)
    requires Balanced(a) && Balanced(b) && IsOpChar(s)
    ensures Balanced(a + [s] + b)
  {
    var t := a + [s] + b;
    forall j | 0 <= j <= |t|
      ensures Depth(t[j..]) <= 0
    {
      if j <= |a| {
        assert Depth(a[j..]) <= 0;
        JoinSuffixLeft(a, s, b, j);
      } else {
        assert Depth(b[j - |a| - 1..]) <= 0;
        JoinSuffixRight(a, s, b, j);
      }
    }
    JoinSuffixLeft(a, s, b, 0);
    assert a[0..] == a && t[0..] == t;
  }

  /** A suffix of `L s R` starting inside `L`: its balance is that of the rest of `L`. */
  lemma JoinSuffixLeft(a: string, s: char, b: string, j: nat)
    requires j <= |a| && Depth(b) == 0 && IsOpChar(s)
    ensures Depth((a + [s] + b)[j..]) == Depth(a[j..])
  {
    assert (a + [s] + b)[j..] == a[j..] + ([s] + b);
    DepthConcat(a[j..], [s] + b);
    DepthConcat([s], b);
  }

  /** A suffix of `L s R` starting after `s` is a suffix of `R`. */
  lemma JoinSuffixRight(a: string, s: char, b: string, j: nat)
    requires |a| < j <= |a| + 1 + |b|
    ensures (a + [s] + b)[j..] == b[j - |a| - 1..]
  {
  }

  /** In `L s R` the middle connective is the only one at suffix balance zero. */
  lemma JoinSplitPoints(a: string, s: char, b: string, level: Level)
    requires NoTopOp(a) && NoTopOp(b) && Balanced(b) && IsOpChar(s)
    ensures forall m :: IsSplitPoint(a + [s] + b, m, level) <==> m == |a| && AtLevel(level, s)
  {
    var t := a + [s] + b;
    forall m | 0 <= m < |t|
      ensures IsSplitPoint(t, m, level) <==> m == |a| && AtLevel(level, s)
    {
      if m < |a| {
        assert IsOpChar(a[m]) ==> Depth(a[m..]) != 0;
        JoinSuffixLeft(a, s, b, m);
        assert t[m] == a[m];
      } else if m == |a| {
        JoinMiddle(a, s, b);
      } else {
        var k := m - |a| - 1;
        assert IsOpChar(b[k]) ==> Depth(b[k..]) != 0;
        JoinSuffixRight(a, s, b, m);
        assert t[m] == b[k];
      }
    }
  }

  /** The suffix of `L s R` from `s` on has balance zero. */
  lemma JoinMiddle(a: string, s: char, b: string)
    requires Depth(b) == 0 && IsOpChar(s)
    ensures (a + [s] + b)[|a|] == s && Depth((a + [s] + b)[|a|..]) == 0
  {
    assert (a + [s] + b)[|a|..] == [s] + b;
    DepthConcat([s], b);
  }

  /** A string led by a closed group and followed by more text is not one group. */
  lemma GroupThenMore(c: string, rest: string)
    requires Balanced(c) && |rest| >= 1
    ensures !Enclosed("(" + c + ")" + rest)
  {
    var t := "(" + c + ")" + rest;
    var k := |c| + 1;
    WrapBalanced(c);
    assert t[..k + 1] == "(" + c + ")";
    assert ClosesAt(t, k);
    EnclosedSpec(t);
  }

  lemma JoinShape(a: string, s: char, b: string)
    requires Balanced(a) && Balanced(b) && NoWhitespace(a) && NoWhitespace(b) && IsOpChar(s)
    ensures Balanced(a + [s] + b) && NoWhitespace(a + [s] + b)
  {
    BalancedJoin(a, s, b);
    JoinNoWhitespace(a, s, b);
  }

  lemma JoinNoWhitespace(a: string, s: char, b: string)
    requires NoWhitespace(a) && NoWhitespace(b) && IsOpChar(s)
    ensures NoWhitespace(a + [s] + b)
  {
    var t := a + [s] + b;
    forall i | 0 <= i < |t|
      ensures !IsWhitespace(t[i])
    {
      if i < |a| {
        assert t[i] == a[i];
      } else if i > |a| {
        assert t[i] == b[i - |a| - 1];
      }
    }
  }

  /** Printed operands are balanced, have no top-level connective and no whitespace. */
  lemma {:induction false} OperandShape(x: Node)
    requires WellFormed(x) && AtomsPrintable(x)
    ensures Balanced(Compact(x)) && NoWhitespace(Compact(x))
    ensures Balanced(NotOperand(x)) && NoTopOp(NotOperand(x)) && NoWhitespace(NotOperand(x))
    ensures Balanced(BinOperand(x)) && NoTopOp(BinOperand(x)) && NoWhitespace(BinOperand(x))
    decreases x
  {
    match x
    case Atom(a) =>
      SymbolShape(a);
    case Not(y) =>
      OperandShape(y);
      TildeShape(NotOperand(y));
      WrapShape(Compact(x));
    case Bin(op, l, r) =>
      OperandShape(l);
      OperandShape(r);
      JoinShape(BinOperand(l), Symbol(op), BinOperand(r));
      WrapShape(Compact(x));
  }

  /** A printed binary operand followed by a connective is not one parenthesised group. */
  lemma OperandThenMore(x: Node, rest: string)
    requires WellFormed(x) && AtomsPrintable(x) && |rest| >= 1
    ensures !Enclosed(BinOperand(x) + rest)
  {
    var t := BinOperand(x) + rest;
    match x
    case Atom(a) =>
      assert BinOperand(x) == a;
      assert IsSymbolChar(a[0]);
    case Not(y) =>
      assert BinOperand(x) == "~" + NotOperand(y);
    case Bin(_, _, _) =>
      OperandShape(x);
      GroupThenMore(Compact(x), rest);
  }

  // ---------------------------------------------------------------------
  // Parsing printed strings
  // ---------------------------------------------------------------------

  lemma ParseWrapped(c: string)
    requires Balanced(c) && NoWhitespace(c)
    ensures Parse("(" + c + ")") == Parse(c)
  {
    ParseCleanedWrapped(c);
    ParseOfClean("(" + c + ")");
  }

  lemma ParseSymbol(a: string)
    requires IsSymbol(a)
    ensures Parse(a) == Atom(a)
  {
    CleanSymbol(a);
    forall k | 0 <= k < |a|
      ensures !IsSplitPoint(a, k, Conditional) && !IsSplitPoint(a, k, Junction)
    {
      assert IsSymbolChar(a[k]);
    }
    ParseAtomic(a);
  }

  lemma ParseTilde(u: string)
    requires Balanced(u) && NoTopOp(u) && NoWhitespace(u)
    ensures Parse("~" + u) == Not(Parse(u))
  {
    var t := "~" + u;
    TildeShape(u);
    CleanKeepsClean(t);
    forall k | 0 <= k < |t|
      ensures !IsSplitPoint(t, k, Conditional) && !IsSplitPoint(t, k, Junction)
    {
    }
    ParseNegation(t);
    assert t[1..] == u;
  }

  lemma ParseJoin(a: string, s: char, b: string)
    requires IsOpChar(s) && NoTopOp(a) && NoTopOp(b) && Balanced(b)
    requires NoWhitespace(a + [s] + b) && !Enclosed(a + [s] + b)
    ensures Parse(a + [s] + b) == Bin(OpOf(s), Parse(a), Parse(b))
  {
    var t := a + [s] + b;
    CleanKeepsClean(t);
    JoinSplitPoints(a, s, b, Conditional);
    JoinSplitPoints(a, s, b, Junction);
    assert t[..|a|] == a;
    assert t[|a| + 1..] == b;
    if s == '>' {
      ParseConditional(t, |a|);
    } else {
      ParseJunction(t, |a|);
    }
  }

  lemma ParseNotCase(y: Node)
    requires WellFormed(y) && AtomsPrintable(y) && Parse(NotOperand(y)) == y
    ensures Parse(Compact(Not(y))) == Not(y)
  {
    OperandShape(y);
    ParseTilde(NotOperand(y));
  }

  /** What the parser needs to know about a printed binary formula. */
  lemma BinCompactShape(op: BinOp, l: Node, r: Node)
    requires WellFormed(l) && AtomsPrintable(l) && WellFormed(r) && AtomsPrintable(r)
    ensures NoTopOp(BinOperand(l)) && NoTopOp(BinOperand(r)) && Balanced(BinOperand(r))
    ensures NoWhitespace(BinOperand(l) + [Symbol(op)] + BinOperand(r))
    ensures !Enclosed(BinOperand(l) + [Symbol(op)] + BinOperand(r))
  {
    OperandShape(l);
    OperandShape(r);
    JoinNoWhitespace(BinOperand(l), Symbol(op), BinOperand(r));
    BinNotEnclosed(op, l, r);
  }

  lemma BinNotEnclosed(op: BinOp, l: Node, r: Node)
    requires WellFormed(l) && AtomsPrintable(l) && WellFormed(r)
    ensures !Enclosed(BinOperand(l) + [Symbol(op)] + BinOperand(r))
  {
    var a, b := BinOperand(l), BinOperand(r);
    OperandThenMore(l, [Symbol(op)] + b);
    assert a + ([Symbol(op)] + b) == a + [Symbol(op)] + b;
  }

  lemma ParseBinCase(op: BinOp, l: Node, r: Node)
    requires WellFormed(l) && AtomsPrintable(l) && Parse(BinOperand(l)) == l
    requires WellFormed(r) && AtomsPrintable(r) && Parse(BinOperand(r)) == r
    ensures Parse(Compact(Bin(op, l, r))) == Bin(op, l, r)
  {
    BinCompactShape(op, l, r);
    ParseJoin(BinOperand(l), Symbol(op), BinOperand(r));
  }

  lemma {:induction false} ParseCompact(f: Node)
    requires WellFormed(f) && AtomsPrintable(f)
    ensures Parse(Compact(f)) == f
    decreases f, 0
  {
    match f
    case Atom(a) =>
      ParseSymbol(a);
    case Not(y) =>
      ParseNotOperand(y);
      ParseNotCase(y);
    case Bin(op, l, r) =>
      ParseBinOperand(l);
      ParseBinOperand(r);
      ParseBinCase(op, l, r);
  }

  lemma {:induction false} ParseNotOperand(x: Node)
    requires WellFormed(x) && AtomsPrintable(x)
    ensures Parse(NotOperand(x)) == x
    decreases x, 1
  {
    ParseCompact(x);
    if !x.Atom? {
      OperandShape(x);
      ParseWrapped(Compact(x));
    }
  }

  lemma {:induction false} ParseBinOperand(x: Node)
    requires WellFormed(x) && AtomsPrintable(x)
    ensures Parse(BinOperand(x)) == x
    decreases x, 1
  {
    ParseCompact(x);
    if !(x.Atom? || x.Not?) {
      OperandShape(x);
      ParseWrapped(Compact(x));
    }
  }

  /**
    The printer and the parser agree: a formula without absent children
    whose atom symbols are printable parses back from its printed form.
   */
  lemma RoundTrip(f: Node)
    requires WellFormed(f) && AtomsPrintable(f)
    ensures Parse(ToString(f)) == f
  {
    ParseIgnoresWhitespace(ToString(f));
    CleanToString(f);
    ParseCompact(f);
  }
}

=== FILE: rules.dfy ===
/**
  The rule engine of `src/logicSolver.js`: the equivalence rules returned by
  `getReplacements` (DN, Comm, Impl, DM) and the inference rules written
  inline in `findPath` (Simp, Add, MP, MT, DS, HS, CD, Conj).

  Each rule is given twice: once as the schema it implements (`Derives`,
  a declarative relation between source lines and a conclusion), and once
  as the candidate lists the search enumerates, in the order the source
  produces them. The candidate lists are proved to be exactly the schema
  instances, and the schemas are proved truth-preserving.
 */
module Rules {
  import opened Formula

  /** The justification of a proof line. Every equivalence step is tagged `Repl`. */
  datatype Rule = Premise | Repl | Simp | Add | MP | MT | DS | HS | CD | Conj

  /** The tag the source writes into a proof line. */
  function RuleName(r: Rule): string
  {
    match r
    case Premise => "Premise"
    case Repl => "Repl"
    case Simp => "Simp"
    case Add => "Add"
    case MP => "MP"
    case MT => "MT"
    case DS => "DS"
    case HS => "HS"
    case CD => "CD"
    case Conj => "Conj"
  }

  // ---------------------------------------------------------------------
  // Equivalence rules
  // ---------------------------------------------------------------------

  /**
    The replacement schemas: double negation in both directions,
    commutation of `v` and `.`, material implication in both directions
    (`P > Q` and `~P v Q`), and De Morgan from `~(P . Q)` to `~P v ~Q`.
   */
  predicate IsReplacement(n: Node, c: Node)
  {
    || n == Not(Not(c))
    || c == Not(Not(n))
    || (n.Bin? && n.op != Implies && c == Bin(n.op, n.right, n.left))
    || (n.Bin? && n.op == Implies && c == Bin(Or, Not(n.left), n.right))
    || (n.Bin? && n.op == Or && n.left.Not? && c == Bin(Implies, n.left.arg, n.right))
    || (n.Not? && n.arg.Bin? && n.arg.op == And && c == Bin(Or, Not(n.arg.left), Not(n.arg.right)))
  }

  /**
    `getReplacements`: the rewrites of a whole line, in the order DN
    elimination, DN introduction, Comm, Impl, reverse Impl, DM. An absent
    node has none.
   */
  function GetReplacements(n: Node): (r: seq<Node>)
    requires n.Missing? || WellFormed(n)
    ensures n.Missing? ==> r == []
    ensures !n.Missing? ==> Not(Not(n)) in r
    ensures forall c :: c in r <==> !n.Missing? && IsReplacement(n, c)
    ensures AllWellFormed(r)
  {
    if n.Missing? then []
    else
      var dnElim := if n.Not? && n.arg.Not? then [n.arg.arg] else [];
      var comm := if n.Bin? && (n.op == And || n.op == Or) then [Bin(n.op, n.right, n.left)] else [];
      var impl := if n.Bin? && n.op == Implies then [Bin(Or, Not(n.left), n.right)] else [];
      var implRev :=
        if n.Bin? && n.op == Or && n.left.Not? then assert WellFormed(n.left); [Bin(Implies, n.left.arg, n.right)] else [];
      var dm := if n.Not? && n.arg.Bin? && n.arg.op == And then [Bin(Or, Not(n.arg.left), Not(n.arg.right))] else [];
      assert WellFormed(Not(Not(n)));
      assert AllWellFormed(dnElim) && AllWellFormed(comm) && AllWellFormed(impl);
      assert AllWellFormed(implRev) && AllWellFormed(dm);
      dnElim + [Not(Not(n))] + comm + impl + implRev + dm
  }

  /** Every replacement has the same truth value as the line it rewrites. */
  lemma ReplacementPreservesTruth(n: Node, c: Node, v: Valuation)
    requires WellFormed(n) && IsReplacement(n, c)
    ensures WellFormed(c) && Eval(c, v) == Eval(n, v)
  {
  }

  /** `getReplacements` only returns formulas equivalent to its argument. */
  lemma ReplacementsEquivalent(n: Node, v: Valuation)
    requires WellFormed(n)
    ensures forall c :: c in GetReplacements(n) ==> Eval(c, v) == Eval(n, v)
  {
    forall c | c in GetReplacements(n)
      ensures Eval(c, v) == Eval(n, v)
    {
      ReplacementPreservesTruth(n, c, v);
    }
  }

  // ---------------------------------------------------------------------
  // Inference schemas
  // ---------------------------------------------------------------------

  /** Addition may conclude the disjunction `g` from one of its disjuncts `p`. */
  predicate AddsTo(p: Node, g: Node)
  {
    g.Bin? && g.op == Or && (g.left == p || g.right == p)
  }

  /** Conjunction may conclude the conjunction `g` from its two conjuncts, in either order. */
  predicate ConjoinsTo(p1: Node, p2: Node, g: Node)
  {
    g.Bin? && g.op == And && ((g.left == p1 && g.right == p2) || (g.left == p2 && g.right == p1))
  }

  /**
    `c` follows by `rule` from the source lines `src` (one line for Repl,
    Simp and Add, two for the others, in the order of the line's
    references). Add and Conj only conclude members of the goal list.
   */
  predicate Derives(rule: Rule, src: seq<Node>, c: Node, goals: seq<Node>)
  {
    match rule
    case Premise => false
    case Repl => |src| == 1 && IsReplacement(src[0], c)
    case Simp => |src| == 1 && src[0].Bin? && src[0].op == And && (c == src[0].left || c == src[0].right)
    case Add => |src| == 1 && c in goals && AddsTo(src[0], c)
    case MP => |src| == 2 && src[0] == Bin(Implies, src[1], c)
    case MT =>
      |src| == 2 && src[0].Bin? && src[0].op == Implies
      && src[1] == Not(src[0].right) && c == Not(src[0].left)
    case DS =>
      |src| == 2 && src[0].Bin? && src[0].op == Or
      && ((src[1] == Not(src[0].left) && c == src[0].right) || (src[1] == Not(src[0].right) && c == src[0].left))
    case HS =>
      |src| == 2 && src[0].Bin? && src[0].op == Implies && src[1].Bin? && src[1].op == Implies
      && src[1].left == src[0].right && c == Bin(Implies, src[0].left, src[1].right)
    case CD =>
      |src| == 2 && src[0].Bin? && src[0].op == And
      && src[0].left.Bin? && src[0].left.op == Implies && src[0].right.Bin? && src[0].right.op == Implies
      && (src[1] == Bin(Or, src[0].left.left, src[0].right.left) || src[1] == Bin(Or, src[0].right.left, src[0].left.left))
      && c == Bin(Or, src[0].left.right, src[0].right.right)
    case Conj => |src| == 2 && c in goals && ConjoinsTo(src[0], src[1], c)
  }

  /**
    Soundness of every rule: a conclusion drawn from well-formed lines is
    well formed, and it is true under every valuation that makes the
    source lines true.
   */
  lemma DerivesSound(rule: Rule, src: seq<Node>, c: Node, goals: seq<Node>, v: Valuation)
    requires AllWellFormed(src) && AllWellFormed(goals) && Derives(rule, src, c, goals)
    ensures WellFormed(c)
    ensures AllTrue(src, v) ==> Eval(c, v)
  {
    match rule
    case Premise =>
    case Repl =>
      ReplacementPreservesTruth(src[0], c, v);
    case Simp =>
      assert WellFormed(src[0]);
    case Add =>
      var k :| 0 <= k < |goals| && goals[k] == c;
    case Conj =>
      var k :| 0 <= k < |goals| && goals[k] == c;
    case CD =>
      TwoSources(src, v);
      assert WellFormed(src[0].left) && WellFormed(src[0].right);
      if AllTrue(src, v) {
        assert Eval(src[0].left, v) && Eval(src[0].right, v);
      }
    case _ =>
      TwoSources(src, v);
  }

  lemma TwoSources(src: seq<Node>, v: Valuation)
    requires AllWellFormed(src) && |src| == 2
    ensures WellFormed(src[0]) && WellFormed(src[1])
    ensures AllTrue(src, v) <==> Eval(src[0], v) && Eval(src[1], v)
  {
  }

  // ---------------------------------------------------------------------
  // Candidate lists, in the order the search tries them
  // ---------------------------------------------------------------------

  /** A formula the search may append, with the rule that justifies it. */
  datatype Candidate = Candidate(node: Node, rule: Rule)

  function Tag(ns: seq<Node>, rule: Rule): (r: seq<Candidate>)
    ensures |r| == |ns|
    ensures forall k :: 0 <= k < |r| ==> r[k] == Candidate(ns[k], rule)
  {
    seq(|ns|, k requires 0 <= k < |ns| => Candidate(ns[k], rule))
  }

  /** The Add candidates for line `p`: the disjunctive goals having `p` as a disjunct, in goal order. */
  function AddMoves(p: Node, goals: seq<Node>): (r: seq<Candidate>)
    requires WellFormed(p) && AllWellFormed(goals)
    ensures forall m :: m in r <==> m.rule == Add && m.node in goals && AddsTo(p, m.node)
  {
    if goals == [] then []
    else
      var g := goals[0];
      assert WellFormed(g);
      var here := if g.Bin? && g.op == Or && (Equals(g.left, p) || Equals(g.right, p)) then [Candidate(g, Add)] else [];
      here + AddMoves(p, goals[1..])
  }

  /** The Conj candidates for lines `p1`, `p2`: the conjunctive goals made of them, in goal order. */
  function ConjMoves(p1: Node, p2: Node, goals: seq<Node>): (r: seq<Candidate>)
    requires WellFormed(p1) && WellFormed(p2) && AllWellFormed(goals)
    ensures forall m :: m in r <==> m.rule == Conj && m.node in goals && ConjoinsTo(p1, p2, m.node)
  {
    if goals == [] then []
    else
      var g := goals[0];
      assert WellFormed(g);
      var here :=
        if g.Bin? && g.op == And && ((Equals(g.left, p1) && Equals(g.right, p2)) || (Equals(g.left, p2) && Equals(g.right, p1)))
        then [Candidate(g, Conj)] else [];
      here + ConjMoves(p1, p2, goals[1..])
  }

  /** The Repl candidates for line `p`: its replacements, in `getReplacements` order. */
  function ReplMoves(p: Node): (r: seq<Candidate>)
    requires WellFormed(p)
    ensures forall m :: m in r <==> m.rule == Repl && IsReplacement(p, m.node)
  {
    var ns := GetReplacements(p);
    var r := Tag(ns, Repl);
    assert forall m :: m in r ==> m.node in ns;
    assert forall c :: c in ns ==> Candidate(c, Repl) in r by {
      forall c | c in ns
        ensures Candidate(c, Repl) in r
      {
        var k :| 0 <= k < |ns| && ns[k] == c;
        assert r[k] == Candidate(c, Repl);
      }
    }
    r
  }

  /** The Simp candidates for line `p`: for a conjunction, its left then its right conjunct. */
  function SimpMoves(p: Node): (r: seq<Candidate>)
    ensures forall m :: m in r <==> m.rule == Simp && p.Bin? && p.op == And && (m.node == p.left || m.node == p.right)
  {
    if p.Bin? && p.op == And then [Candidate(p.left, Simp), Candidate(p.right, Simp)] else []
  }

  /**
    The one-line candidates from line `p`: its replacements, then for a
    conjunction its left and right conjunct, then Addition over the goals.
    They are exactly the one-line schema instances.
   */
  function OneLineMoves(p: Node, goals: seq<Node>): (r: seq<Candidate>)
    requires WellFormed(p) && AllWellFormed(goals)
    ensures forall m :: m in r <==> Derives(m.rule, [p], m.node, goals)
  {
    ReplMoves(p) + SimpMoves(p) + AddMoves(p, goals)
  }

  /** Modus ponens with `p1` as the conditional and `p2` as its antecedent. */
  function MpMoves(p1: Node, p2: Node, goals: seq<Node>): (r: seq<Candidate>)
    requires WellFormed(p1) && WellFormed(p2)
    ensures forall m :: m in r <==> m.rule == MP && Derives(MP, [p1, p2], m.node, goals)
  {
    if p1.Bin? && p1.op == Implies && Equals(p1.left, p2) then [Candidate(p1.right, MP)] else []
  }

  /** Modus tollens with `p1` as the conditional and `p2` as the negated consequent. */
  function MtMoves(p1: Node, p2: Node, goals: seq<Node>): (r: seq<Candidate>)
    requires WellFormed(p1) && WellFormed(p2)
    ensures forall m :: m in r <==> m.rule == MT && Derives(MT, [p1, p2], m.node, goals)
  {
    if p1.Bin? && p1.op == Implies && p2.Not? && Equals(p1.right, p2.arg) then [Candidate(Not(p1.left), MT)] else []
  }

  /**
    Disjunctive syllogism with `p1` as the disjunction and `p2` as a negated
    disjunct: first the case where the left disjunct is denied, then the right.
   */
  function DsMoves(p1: Node, p2: Node, goals: seq<Node>): (r: seq<Candidate>)
    requires WellFormed(p1) && WellFormed(p2)
    ensures forall m :: m in r <==> m.rule == DS && Derives(DS, [p1, p2], m.node, goals)
  {
    if p1.Bin? && p1.op == Or && p2.Not? then
      (if Equals(p2.arg, p1.left) then [Candidate(p1.right, DS)] else [])
      + (if Equals(p2.arg, p1.right) then [Candidate(p1.left, DS)] else [])
    else []
  }

  /** Hypothetical syllogism chaining `p1` into `p2`. */
  function HsMoves(p1: Node, p2: Node, goals: seq<Node>): (r: seq<Candidate>)
    requires WellFormed(p1) && WellFormed(p2)
    ensures forall m :: m in r <==> m.rule == HS && Derives(HS, [p1, p2], m.node, goals)
  {
    if p1.Bin? && p1.op == Implies && p2.Bin? && p2.op == Implies && Equals(p1.right, p2.left)
    then [Candidate(Bin(Implies, p1.left, p2.right), HS)] else []
  }

  /**
    Constructive dilemma: `p1` is `(P > Q) . (R > S)` and `p2` is `P v R`
    or `R v P`; the conclusion is `Q v S`.
   */
  function CdMoves(p1: Node, p2: Node, goals: seq<Node>): (r: seq<Candidate>)
    requires WellFormed(p1) && WellFormed(p2)
    ensures forall m :: m in r <==> m.rule == CD && Derives(CD, [p1, p2], m.node, goals)
  {
    if p1.Bin? && p1.op == And && p1.left.Bin? && p1.left.op == Implies
      && p1.right.Bin? && p1.right.op == Implies && p2.Bin? && p2.op == Or
    then
      var P, Q, R, S := p1.left.left, p1.left.right, p1.right.left, p1.right.right;
      if (Equals(p2.left, P) && Equals(p2.right, R)) || (Equals(p2.left, R) && Equals(p2.right, P))
      then [Candidate(Bin(Or, Q, S), CD)] else []
    else []
  }

  /**
    The two-line candidates from line `p1` (first reference) and `p2`
    (second reference), in the order MP, MT, DS on the left disjunct, DS on
    the right disjunct, HS, CD, then Conjunction over the goals. They are
    exactly the two-line schema instances.
   */
  function TwoLineMoves(p1: Node, p2: Node, goals: seq<Node>): (r: seq<Candidate>)
    requires WellFormed(p1) && WellFormed(p2) && AllWellFormed(goals)
    ensures forall m :: m in r <==> Derives(m.rule, [p1, p2], m.node, goals)
  {
    MpMoves(p1, p2, goals) + MtMoves(p1, p2, goals) + DsMoves(p1, p2, goals)
    + HsMoves(p1, p2, goals) + CdMoves(p1, p2, goals) + ConjMoves(p1, p2, goals)
  }
}

=== FILE: search.dfy ===
/**
  The depth-bounded backtracking search of `src/logicSolver.js`: `isKnown`,
  `collectGoals` and `findPath`.

  `findPath` mutates the path in place, but every branch that fails is
  popped again, so each candidate is checked against, and the move list is
  built from, the path as it was on entry. The search is therefore a pure
  function here that returns the extended path, or nothing.
 */
module Search {
  import opened Options
  import opened Formula
  import opened Rules

  /**
    A proof line: the formula, its justification, and the 1-based numbers
    of the lines it cites (`-1` where there is no such reference).
   */
  datatype Step = Step(node: Node, rule: Rule, ref1: int, ref2: int)

  predicate StepsWellFormed(path: seq<Step>)
  {
    forall k :: 0 <= k < |path| ==> WellFormed(path[k].node)
  }

  /** Some line of the path holds exactly the formula `t`. */
  ghost predicate Known(path: seq<Step>, t: Node)
  {
    exists k :: 0 <= k < |path| && path[k].node == t
  }

  /** `isKnown`: the lines are compared with `equals`, first to last. */
  function IsKnown(path: seq<Step>, target: Node): (r: bool)
    requires StepsWellFormed(path)
    ensures r <==> Known(path, target)
  {
    if path == [] then false
    else
      assert forall k :: 0 < k < |path| ==> path[k] == path[1..][k - 1];
      Equals(path[0].node, target) || IsKnown(path[1..], target)
  }

  // ---------------------------------------------------------------------
  // Goals
  // ---------------------------------------------------------------------

  /** `g` occurs as a (present) subtree of `n`, `n` itself included. */
  predicate IsSubformula(g: Node, n: Node)
  {
    match n
    case Missing => false
    case Atom(_) => g == n
    case Not(x) => g == n || IsSubformula(g, x)
    case Bin(_, l, r) => g == n || IsSubformula(g, l) || IsSubformula(g, r)
  }

  /**
    `collectGoals`: every subtree of `n` in pre-order (node, then left
    subtree, then right subtree), absent children skipped.
   */
  function CollectGoals(n: Node): (r: seq<Node>)
    ensures |r| == Size(n)
    ensures forall g :: g in r <==> IsSubformula(g, n)
    ensures !n.Missing? ==> r[0] == n
    ensures WellFormed(n) ==> AllWellFormed(r)
    decreases Size(n)
  {
    if n.Missing? then []
    else
      var l, rr := CollectGoals(LeftField(n)), CollectGoals(RightField(n));
      assert WellFormed(n) ==> (LeftField(n).Missing? || WellFormed(LeftField(n)));
      assert WellFormed(n) ==> (RightField(n).Missing? || WellFormed(RightField(n)));
      [n] + l + rr
  }

  /** The goal list of a run: the subtrees of the conclusion, then those of each premise in order. */
  function GoalList(conclusion: Node, premises: seq<Node>): (r: seq<Node>)
    ensures forall g :: g in r ==> IsSubformula(g, conclusion) || exists k :: 0 <= k < |premises| && IsSubformula(g, premises[k])
    ensures forall g :: IsSubformula(g, conclusion) ==> g in r
    ensures forall k, g :: 0 <= k < |premises| && IsSubformula(g, premises[k]) ==> g in r
    ensures WellFormed(conclusion) && AllWellFormed(premises) ==> AllWellFormed(r)
  {
    if premises == [] then CollectGoals(conclusion)
    else
      var front := GoalList(conclusion, premises[..|premises| - 1]);
      var last := premises[|premises| - 1];
      assert forall k :: 0 <= k < |premises| - 1 ==> premises[..|premises| - 1][k] == premises[k];
      front + CollectGoals(last)
  }

  // ---------------------------------------------------------------------
  // Moves
  // ---------------------------------------------------------------------

  /**
    Appending `s` to `path` is a legal inference: it cites one earlier line
    (`ref2 == -1`) or two distinct earlier lines, and follows from them by
    its rule.
   */
  predicate Admissible(path: seq<Step>, s: Step, goals: seq<Node>)
  {
    1 <= s.ref1 <= |path|
    && ((s.ref2 == -1 && Derives(s.rule, [path[s.ref1 - 1].node], s.node, goals))
        || (1 <= s.ref2 <= |path| && s.ref2 != s.ref1
            && Derives(s.rule, [path[s.ref1 - 1].node, path[s.ref2 - 1].node], s.node, goals)))
  }

  /** Turn candidates into proof lines citing `ref1` and `ref2`. */
  function Place(cands: seq<Candidate>, ref1: int, ref2: int): (r: seq<Step>)
    ensures forall s :: s in r <==> s.ref1 == ref1 && s.ref2 == ref2 && Candidate(s.node, s.rule) in cands
  {
    if cands == [] then []
    else [Step(cands[0].node, cands[0].rule, ref1, ref2)] + Place(cands[1..], ref1, ref2)
  }

  /** `s` is a two-line move citing line `i` first and another line second. */
  predicate PairMove(path: seq<Step>, i: nat, s: Step, goals: seq<Node>)
    requires i < |path|
  {
    s.ref1 == i + 1 && 0 < s.ref2 <= |path| && s.ref2 != i + 1
    && Derives(s.rule, [path[i].node, path[s.ref2 - 1].node], s.node, goals)
  }

  /** `pairs[j]` lists exactly the two-line candidates from line `i` (first) and line `j` (second). */
  ghost predicate PairTable(path: seq<Step>, i: nat, pairs: seq<seq<Candidate>>, goals: seq<Node>)
    requires i < |path|
  {
    |pairs| == |path|
    && forall j, m :: 0 <= j < |pairs| ==> (m in pairs[j] <==> Derives(m.rule, [path[i].node, path[j].node], m.node, goals))
  }

  /** The two-line candidates of line `i` against every line, in line order. */
  function Pairs(path: seq<Step>, i: nat, goals: seq<Node>): (r: seq<seq<Candidate>>)
    requires StepsWellFormed(path) && AllWellFormed(goals) && i < |path|
    ensures PairTable(path, i, r, goals)
  {
    seq(|path|, j requires 0 <= j < |path| => TwoLineMoves(path[i].node, path[j].node, goals))
  }

  /**
    The two-line moves with line `i` first and a line `j' >= j`, `j' != i`,
    second (the inner `j` loop), where `pairs[j']` lists the candidates for
    the pair of lines `i` and `j'`.
   */
  function PairMoves(i: nat, j: nat, pairs: seq<seq<Candidate>>): seq<Step>
    requires j <= |pairs|
    decreases |pairs| - j
  {
    if j == |pairs| then []
    else (if i == j then [] else Place(pairs[j], i + 1, j + 1)) + PairMoves(i, j + 1, pairs)
  }

  /** The inner `j` loop from `j` on places each candidate of each later line `j' != i` once, citing `i + 1` and `j' + 1`. */
  lemma {:induction false} PairMovesSpec(i: nat, j: nat, pairs: seq<seq<Candidate>>, s: Step)
    requires j <= |pairs|
    ensures s in PairMoves(i, j, pairs) <==>
      s.ref1 == i + 1 && j < s.ref2 <= |pairs| && s.ref2 != i + 1 && Candidate(s.node, s.rule) in pairs[s.ref2 - 1]
    decreases |pairs| - j
  {
    if j < |pairs| {
      PairMovesSpec(i, j + 1, pairs, s);
      var here := if i == j then [] else Place(pairs[j], i + 1, j + 1);
      var rest := PairMoves(i, j + 1, pairs);
      assert PairMoves(i, j, pairs) == here + rest;
      if s.ref2 == j + 1 {
        assert s !in rest;
      } else {
        assert s !in here;
      }
    }
  }

  /** A move placed from the candidate table of line `i` is a two-line move citing `i` first. */
  lemma PairTableMove(path: seq<Step>, i: nat, pairs: seq<seq<Candidate>>, goals: seq<Node>, s: Step)
    requires i < |path| && PairTable(path, i, pairs, goals)
    ensures (s.ref1 == i + 1 && 0 < s.ref2 <= |pairs| && s.ref2 != i + 1 && Candidate(s.node, s.rule) in pairs[s.ref2 - 1])
      <==> PairMove(path, i, s, goals)
  {
    if 0 < s.ref2 <= |pairs| {
      var m := Candidate(s.node, s.rule);
      assert m in pairs[s.ref2 - 1] <==> Derives(m.rule, [path[i].node, path[s.ref2 - 1].node], m.node, goals);
    }
  }

  /** The one-line moves from line `i`. */
  function SingleMoves(path: seq<Step>, i: nat, goals: seq<Node>): (r: seq<Step>)
    requires StepsWellFormed(path) && AllWellFormed(goals) && i < |path|
    ensures forall s :: s in r <==> s.ref1 == i + 1 && s.ref2 == -1 && Derives(s.rule, [path[i].node], s.node, goals)
  {
    Place(OneLineMoves(path[i].node, goals), i + 1, -1)
  }

  /** The moves that cite line `i` first: its one-line moves, then its two-line moves. */
  function LineMoves(path: seq<Step>, i: nat, goals: seq<Node>): (r: seq<Step>)
    requires StepsWellFormed(path) && AllWellFormed(goals) && i < |path|
    ensures forall s :: s in r <==> s.ref1 == i + 1 && Admissible(path, s, goals)
  {
    var pairs := Pairs(path, i, goals);
    var one, two := SingleMoves(path, i, goals), PairMoves(i, 0, pairs);
    assert forall s :: s in two <==> PairMove(path, i, s, goals) by {
      forall s
        ensures s in two <==> PairMove(path, i, s, goals)
      {
        PairMovesSpec(i, 0, pairs, s);
        PairTableMove(path, i, pairs, goals, s);
      }
    }
    one + two
  }

  /** The moves of the outer `i` loop from line `i` on, in the order the search tries them. */
  function Moves(path: seq<Step>, i: nat, goals: seq<Node>): (r: seq<Step>)
    requires StepsWellFormed(path) && AllWellFormed(goals) && i <= |path|
    ensures forall s :: s in r <==> i < s.ref1 && Admissible(path, s, goals)
    decreases |path| - i
  {
    if i == |path| then [] else LineMoves(path, i, goals) + Moves(path, i + 1, goals)
  }

  /** The conclusion of an admissible move from well-formed lines is well formed. */
  lemma AdmissibleWellFormed(path: seq<Step>, s: Step, goals: seq<Node>)
    requires StepsWellFormed(path) && AllWellFormed(goals) && Admissible(path, s, goals)
    ensures WellFormed(s.node)
  {
    var v: Valuation := _ => true;
    if s.ref2 == -1 {
      DerivesSound(s.rule, [path[s.ref1 - 1].node], s.node, goals, v);
    } else {
      DerivesSound(s.rule, [path[s.ref1 - 1].node, path[s.ref2 - 1].node], s.node, goals, v);
    }
  }

  // ---------------------------------------------------------------------
  // Search
  // ---------------------------------------------------------------------

  /**
    `p` continues `path`: it keeps `path` as a prefix, and every line it
    adds is an admissible move from the lines before it and a formula not
    already on them.
   */
  ghost predicate Extends(path: seq<Step>, p: seq<Step>, goals: seq<Node>)
  {
    |path| <= |p| && p[..|path|] == path && StepsWellFormed(p)
    && forall k :: |path| <= k < |p| ==> Admissible(p[..k], p[k], goals) && !Known(p[..k], p[k].node)
  }

  /** How many more lines the search may still add. */
  function Budget(depth: nat, maxDepth: nat): nat
  {
    if depth < maxDepth then maxDepth - depth else 0
  }

  /**
    `findPath`: if the target is already a line, the path itself; otherwise,
    below the depth bound, the first move (in source order) whose
    continuation reaches the target.
   */
  function FindPath(path: seq<Step>, target: Node, depth: nat, maxDepth: nat, goals: seq<Node>): (r: Option<seq<Step>>)
    requires StepsWellFormed(path) && AllWellFormed(goals)
    ensures Known(path, target) ==> r == Some(path)
    ensures r.None? ==> !Known(path, target)
    ensures r.Some? ==> Extends(path, r.value, goals) && Known(r.value, target)
    ensures r.Some? ==> |r.value| <= |path| + Budget(depth, maxDepth)
    decreases Budget(depth, maxDepth), 1, 0
  {
    if IsKnown(path, target) then
      assert Extends(path, path, goals) by {
        assert path[..|path|] == path;
      }
      Some(path)
    else if depth >= maxDepth then None
    else TryMoves(path, target, depth, maxDepth, goals, Moves(path, 0, goals))
  }

  /** Move `m` is new and its continuation, one level deeper, finds the target. */
  ghost predicate MoveSucceeds(path: seq<Step>, target: Node, depth: nat, maxDepth: nat, goals: seq<Node>, m: Step)
    requires StepsWellFormed(path) && AllWellFormed(goals)
  {
    && !Known(path, m.node)
    && StepsWellFormed(path + [m])
    && FindPath(path + [m], target, depth + 1, maxDepth, goals).Some?
  }

  /**
    The loop over the move list: skip moves already on the path, return the
    first success. `TryMovesGivesUp` states when it returns nothing.
   */
  function TryMoves(path: seq<Step>, target: Node, depth: nat, maxDepth: nat, goals: seq<Node>, moves: seq<Step>): (r: Option<seq<Step>>)
    requires StepsWellFormed(path) && AllWellFormed(goals) && depth < maxDepth
    requires forall s :: s in moves ==> Admissible(path, s, goals)
    ensures r.Some? ==> Extends(path, r.value, goals) && Known(r.value, target)
    ensures r.Some? ==> |r.value| <= |path| + Budget(depth, maxDepth)
    decreases Budget(depth, maxDepth), 0, |moves|
  {
    if moves == [] then None
    else if IsKnown(path, moves[0].node) then TryMoves(path, target, depth, maxDepth, goals, moves[1..])
    else
      var m := moves[0];
      AdmissibleWellFormed(path, m, goals);
      assert StepsWellFormed(path + [m]);
      match FindPath(path + [m], target, depth + 1, maxDepth, goals)
      case Some(p) =>
        ExtendsStep(path, m, p, goals);
        Some(p)
      case None => TryMoves(path, target, depth, maxDepth, goals, moves[1..])
  }

  /**
    The move loop gives up exactly when no move in the list is new and has a
    continuation, one level deeper, that finds the target.
   */
  lemma {:induction false} TryMovesGivesUp(path: seq<Step>, target: Node, depth: nat, maxDepth: nat, goals: seq<Node>, moves: seq<Step>)
    requires StepsWellFormed(path) && AllWellFormed(goals) && depth < maxDepth
    requires forall s :: s in moves ==> Admissible(path, s, goals)
    ensures TryMoves(path, target, depth, maxDepth, goals, moves).None?
      <==> forall s :: s in moves ==> !MoveSucceeds(path, target, depth, maxDepth, goals, s)
    decreases |moves|
  {
    if moves != [] {
      var m := moves[0];
      var rest := moves[1..];
      TryMovesGivesUp(path, target, depth, maxDepth, goals, rest);
      assert forall s :: s in moves <==> s == m || s in rest;
      AdmissibleWellFormed(path, m, goals);
      var r := TryMoves(path, target, depth, maxDepth, goals, moves);
      if Known(path, m.node) {
        assert r == TryMoves(path, target, depth, maxDepth, goals, rest);
        assert !MoveSucceeds(path, target, depth, maxDepth, goals, m);
      } else if FindPath(path + [m], target, depth + 1, maxDepth, goals).Some? {
        assert MoveSucceeds(path, target, depth, maxDepth, goals, m);
        assert r.Some?;
      } else {
        assert r == TryMoves(path, target, depth, maxDepth, goals, rest);
        assert !MoveSucceeds(path, target, depth, maxDepth, goals, m);
      }
    }
  }

  /** A continuation of `path + [m]`, for an admissible new line `m`, continues `path`. */
  lemma ExtendsStep(path: seq<Step>, m: Step, p: seq<Step>, goals: seq<Node>)
    requires Admissible(path, m, goals) && !Known(path, m.node)
    requires Extends(path + [m], p, goals)
    ensures Extends(path, p, goals)
  {
    assert p[..|path| + 1] == path + [m];
    assert p[..|path|] == path;
    assert p[|path|] == m;
  }

  /**
    Soundness of a found proof: when the lines of `path` are true under a
    valuation, every line of a continuation of `path` is true under it.
   */
  lemma {:induction false} ExtendsSound(path: seq<Step>, p: seq<Step>, goals: seq<Node>, v: Valuation)
    requires StepsWellFormed(path) && AllWellFormed(goals) && Extends(path, p, goals)
    requires forall k :: 0 <= k < |path| ==> Eval(path[k].node, v)
    ensures forall k :: 0 <= k < |p| ==> Eval(p[k].node, v)
    decreases |p|
  {
    if |p| > |path| {
      var q := p[..|p| - 1];
      var last := p[|p| - 1];
      assert q[..|path|] == path;
      assert Extends(path, q, goals) by {
        forall k | |path| <= k < |q|
          ensures Admissible(q[..k], q[k], goals) && !Known(q[..k], q[k].node)
        {
          assert q[..k] == p[..k];
        }
      }
      ExtendsSound(path, q, goals, v);
      assert Admissible(q, last, goals);
      LineTrue(q, last, goals, v);
      forall k | 0 <= k < |p|
        ensures Eval(p[k].node, v)
      {
        if k < |q| {
          assert p[k] == q[k];
        }
      }
    }
  }

  /** An admissible line drawn from true lines is true. */
  lemma LineTrue(q: seq<Step>, s: Step, goals: seq<Node>, v: Valuation)
    requires StepsWellFormed(q) && AllWellFormed(goals) && Admissible(q, s, goals)
    requires forall k :: 0 <= k < |q| ==> Eval(q[k].node, v)
    ensures WellFormed(s.node) && Eval(s.node, v)
  {
    var a := q[s.ref1 - 1].node;
    if s.ref2 == -1 {
      DerivesSound(s.rule, [a], s.node, goals, v);
    } else {
      var b := q[s.ref2 - 1].node;
      DerivesSound(s.rule, [a, b], s.node, goals, v);
    }
  }
}

=== FILE: solver.dfy ===
/**
  The exported entry point `solveProof` of `src/logicSolver.js`: split the
  premise text at commas, parse each segment and the conclusion, collect
  the goal list, run the search with depth bounds 1 to 12, and shape the
  result into numbered proof lines or a failure message.
 */
module Solver {
  import opened Options
  import opened Formula
  import opened Parser
  import opened Rules
  import opened Search

  // ---------------------------------------------------------------------
  // Splitting the premise text
  // ---------------------------------------------------------------------

  /** Glue parts back together with `sep` between neighbours. */
  function Join(parts: seq<string>, sep: char): string
    requires |parts| >= 1
  {
    if |parts| == 1 then parts[0] else parts[0] + [sep] + Join(parts[1..], sep)
  }

  /**
    `String.prototype.split` with a one-character separator: the maximal
    separator-free pieces, empty ones included, so there is always at least
    one piece and gluing them back gives the input.
   */
  function Split(s: string, sep: char): (parts: seq<string>)
    ensures |parts| >= 1
    ensures forall k :: 0 <= k < |parts| ==> sep !in parts[k]
    ensures Join(parts, sep) == s
  {
    if s == [] then [[]]
    else
      var rest := Split(s[1..], sep);
      if s[0] == sep then
        assert ([[]] + rest)[1..] == rest;
        [[]] + rest
      else
        var parts := [[s[0]] + rest[0]] + rest[1..];
        assert |rest| > 1 ==> parts[1..] == rest[1..];
        assert s == [s[0]] + s[1..];
        parts
  }

  lemma {:induction false} SplitPiece(a: string, sep: char)
    requires sep !in a
    ensures Split(a, sep) == [a]
    decreases |a|
  {
    if a != [] {
      SplitPiece(a[1..], sep);
      assert [a[0]] + a[1..] == a;
    }
  }

  lemma {:induction false} SplitAfterPiece(a: string, sep: char, t: string)
    requires sep !in a
    ensures Split(a + [sep] + t, sep) == [a] + Split(t, sep)
    decreases |a|
  {
    if a == [] {
      assert ([sep] + t)[1..] == t;
    } else {
      SplitAfterPiece(a[1..], sep, t);
      assert (a + [sep] + t)[1..] == a[1..] + [sep] + t;
      assert [a[0]] + a[1..] == a;
    }
  }

  /** Splitting undoes joining separator-free parts. */
  lemma {:induction false} SplitJoin(parts: seq<string>, sep: char)
    requires |parts| >= 1
    requires forall k :: 0 <= k < |parts| ==> sep !in parts[k]
    ensures Split(Join(parts, sep), sep) == parts
    decreases |parts|
  {
    if |parts| == 1 {
      SplitPiece(parts[0], sep);
    } else {
      SplitJoin(parts[1..], sep);
      SplitAfterPiece(parts[0], sep, Join(parts[1..], sep));
      assert [parts[0]] + parts[1..] == parts;
    }
  }

  // ---------------------------------------------------------------------
  // Premises and the initial path
  // ---------------------------------------------------------------------

  /** Parse every segment and keep the ones that are not empty, in order. */
  function ParseSegments(segs: seq<string>): (r: seq<Node>)
    ensures |r| <= |segs|
  {
    if segs == [] then []
    else
      var p := Parse(segs[0]);
      var rest := ParseSegments(segs[1..]);
      if p.Missing? then rest else [p] + rest
  }

  /**
    The trees are exactly those of the segments that do not parse to an
    absent tree; there are none exactly when every segment parses to one.
   */
  lemma {:induction false} ParseSegmentsMembers(segs: seq<string>)
    ensures forall x :: x in ParseSegments(segs) <==> !x.Missing? && exists k :: 0 <= k < |segs| && Parse(segs[k]) == x
    ensures ParseSegments(segs) == [] <==> forall k :: 0 <= k < |segs| ==> Parse(segs[k]).Missing?
    decreases |segs|
  {
    if segs != [] {
      ParseSegmentsMembers(segs[1..]);
      assert forall k :: 0 < k < |segs| ==> segs[k] == segs[1..][k - 1];
    }
  }

  /** One segment contributes its tree, or nothing when it parses to an absent tree. */
  lemma ParseSegmentsSingle(seg: string)
    ensures ParseSegments([seg]) == if Parse(seg).Missing? then [] else [Parse(seg)]
  {
    assert [seg][1..] == [];
  }

  /** A non-empty segment list: the first segment's tree, if any, then the rest. */
  lemma ParseSegmentsCons(segs: seq<string>)
    requires segs != []
    ensures ParseSegments(segs) == (if Parse(segs[0]).Missing? then [] else [Parse(segs[0])]) + ParseSegments(segs[1..])
  {
  }

  /** The trees keep the text order of their segments, duplicates included. */
  lemma {:induction false} ParseSegmentsConcat(a: seq<string>, b: seq<string>)
    ensures ParseSegments(a + b) == ParseSegments(a) + ParseSegments(b)
    decreases |a|
  {
    if a != [] {
      ParseSegmentsConcat(a[1..], b);
      var ab := a + b;
      assert ab[0] == a[0];
      assert ab[1..] == a[1..] + b;
      ParseSegmentsCons(ab);
      ParseSegmentsCons(a);
    } else {
      assert a + b == b;
    }
  }

  /** The premises of a premise text: its comma segments that parse to a formula. */
  function Premises(text: string): seq<Node>
  {
    ParseSegments(Split(text, ','))
  }

  /**
    A premise text written as comma-free segments joined by commas yields the
    trees of those segments, in order, skipping the empty ones.
   */
  lemma PremisesOfJoin(parts: seq<string>)
    requires |parts| >= 1
    requires forall k :: 0 <= k < |parts| ==> ',' !in parts[k]
    ensures Premises(Join(parts, ',')) == ParseSegments(parts)
  {
    SplitJoin(parts, ',');
  }

  /**
    The path the search starts from: one `Premise` line per premise, no
    references. The pointwise ensures only describes the map; the solver's
    lemmas about the rendered proof are what use it.
   */
  function PremiseSteps(ps: seq<Node>): (r: seq<Step>)
    ensures |r| == |ps|
    ensures forall k :: 0 <= k < |r| ==> r[k] == Step(ps[k], Premise, -1, -1)
  {
    seq(|ps|, k requires 0 <= k < |ps| => Step(ps[k], Premise, -1, -1))
  }

  // ---------------------------------------------------------------------
  // Iterative deepening
  // ---------------------------------------------------------------------

  /** The largest depth bound tried. */
  const MaxSearchDepth: nat := 12

  /** Every depth bound from `depth` to 12 fails. */
  ghost predicate FailsFrom(initial: seq<Step>, target: Node, goals: seq<Node>, depth: nat)
    requires StepsWellFormed(initial) && AllWellFormed(goals)
  {
    forall d: nat :: depth <= d <= MaxSearchDepth ==> FindPath(initial, target, 0, d, goals).None?
  }

  lemma FailsFromStep(initial: seq<Step>, target: Node, goals: seq<Node>, depth: nat)
    requires StepsWellFormed(initial) && AllWellFormed(goals) && depth <= MaxSearchDepth
    ensures FailsFrom(initial, target, goals, depth) <==>
      FindPath(initial, target, 0, depth, goals).None? && FailsFrom(initial, target, goals, depth + 1)
  {
    if FindPath(initial, target, 0, depth, goals).None? && FailsFrom(initial, target, goals, depth + 1) {
      forall d: nat | depth <= d <= MaxSearchDepth
        ensures FindPath(initial, target, 0, d, goals).None?
      {
        if d != depth {
          assert depth + 1 <= d;
        }
      }
    }
  }

  /** Bound `d` is the smallest bound from `depth` on that succeeds, and it finds `p`. */
  ghost predicate FirstSuccess(initial: seq<Step>, target: Node, goals: seq<Node>, depth: nat, d: nat, p: seq<Step>)
    requires StepsWellFormed(initial) && AllWellFormed(goals)
  {
    && depth <= d <= MaxSearchDepth
    && FindPath(initial, target, 0, d, goals) == Some(p)
    && forall d': nat :: depth <= d' < d ==> FindPath(initial, target, 0, d', goals).None?
  }

  /** When bound `depth` fails, the first success from `depth + 1` on is the first from `depth` on. */
  lemma FirstSuccessLater(initial: seq<Step>, target: Node, goals: seq<Node>, depth: nat, next: nat, p: seq<Step>)
    requires StepsWellFormed(initial) && AllWellFormed(goals) && next == depth + 1
    requires FindPath(initial, target, 0, depth, goals).None?
    requires exists d: nat :: FirstSuccess(initial, target, goals, next, d, p)
    ensures exists d: nat :: FirstSuccess(initial, target, goals, depth, d, p)
  {
    var d: nat :| FirstSuccess(initial, target, goals, next, d, p);
    forall d': nat | depth <= d' < d
      ensures FindPath(initial, target, 0, d', goals).None?
    {
      if d' != depth {
        assert next <= d' < d;
      }
    }
    assert FirstSuccess(initial, target, goals, depth, d, p);
  }

  /**
    Run the search from the premises with depth bounds `depth`,
    `depth + 1`, ..., 12 and return the first path found.
   */
  function Deepen(initial: seq<Step>, target: Node, goals: seq<Node>, depth: nat): (r: Option<seq<Step>>)
    requires StepsWellFormed(initial) && AllWellFormed(goals)
    ensures r.None? <==> FailsFrom(initial, target, goals, depth)
    ensures r.Some? ==> exists d: nat :: FirstSuccess(initial, target, goals, depth, d, r.value)
    ensures r.Some? ==> Extends(initial, r.value, goals) && Known(r.value, target)
    ensures r.Some? ==> |r.value| <= |initial| + MaxSearchDepth
    ensures Known(initial, target) && depth <= MaxSearchDepth ==> r == Some(initial)
    decreases MaxSearchDepth + 1 - depth
  {
    if depth > MaxSearchDepth then None
    else
      FailsFromStep(initial, target, goals, depth);
      match FindPath(initial, target, 0, depth, goals)
      case Some(p) =>
        assert FirstSuccess(initial, target, goals, depth, depth, p);
        Some(p)
      case None =>
        var r := Deepen(initial, target, goals, depth + 1);
        if r.Some? then FirstSuccessLater(initial, target, goals, depth, depth + 1, r.value); r else r
  }

  // ---------------------------------------------------------------------
  // Solving
  // ---------------------------------------------------------------------

  /**
    What a run decides. `Unsupported` stands for input where a premise or
    the conclusion has an operator with an empty operand (such as `P >`):
    the source dereferences the absent child and throws on such trees.
   */
  datatype Outcome = Proved(path: seq<Step>) | InvalidInput | NotFound | Unsupported

  /**
    No premise segment parses to a formula, or the conclusion parses to
    nothing (it is empty, or only nested empty parentheses such as `()`).
   */
  predicate InvalidText(premisesText: string, conclusionText: string)
  {
    Premises(premisesText) == [] || Parse(conclusionText).Missing?
  }

  /** Every parsed premise and the conclusion are free of absent children. */
  predicate Complete(premisesText: string, conclusionText: string)
  {
    AllWellFormed(Premises(premisesText)) && WellFormed(Parse(conclusionText))
  }

  /** The goal list of a run with complete input. */
  function Goals(premisesText: string, conclusionText: string): (goals: seq<Node>)
    requires Complete(premisesText, conclusionText)
    ensures AllWellFormed(goals)
  {
    GoalList(Parse(conclusionText), Premises(premisesText))
  }

  /**
    The search part of `solveProof` on complete input: the deepening loop
    from the premise lines. A proof starts with the premises as `Premise`
    lines, contains the conclusion, adds at most 12 lines, and each added
    line is an admissible, new inference; no proof is reported only when
    every depth bound from 1 to 12 fails.
   */
  function ProveFrom(ps: seq<Node>, conclusion: Node, goals: seq<Node>): (r: Outcome)
    requires AllWellFormed(ps) && WellFormed(conclusion) && AllWellFormed(goals)
    ensures r.Proved? || r == NotFound
    ensures r == NotFound <==> FailsFrom(PremiseSteps(ps), conclusion, goals, 1)
    ensures r.Proved? ==> exists d: nat :: FirstSuccess(PremiseSteps(ps), conclusion, goals, 1, d, r.path)
    ensures r.Proved? ==>
      && Extends(PremiseSteps(ps), r.path, goals)
      && Known(r.path, conclusion)
      && |ps| <= |r.path| <= |ps| + MaxSearchDepth
      && forall k :: 0 <= k < |ps| ==> r.path[k] == Step(ps[k], Premise, -1, -1)
  {
    var initial := PremiseSteps(ps);
    match Deepen(initial, conclusion, goals, 1)
    case Some(p) =>
      PremisePrefix(ps, p, goals);
      Proved(p)
    case None => NotFound
  }

  /** A path extending the premise lines starts with them. */
  lemma PremisePrefix(ps: seq<Node>, p: seq<Step>, goals: seq<Node>)
    requires Extends(PremiseSteps(ps), p, goals)
    ensures |ps| <= |p| && forall k :: 0 <= k < |ps| ==> p[k] == Step(ps[k], Premise, -1, -1)
  {
    var initial := PremiseSteps(ps);
    assert p[..|initial|] == initial;
    forall k | 0 <= k < |ps|
      ensures p[k] == Step(ps[k], Premise, -1, -1)
    {
      assert p[k] == p[..|initial|][k];
    }
  }

  /**
    The decision of `solveProof`: invalid input first, then input with an
    absent child, then the search.
   */
  function Solve(premisesText: string, conclusionText: string): (r: Outcome)
    ensures r == InvalidInput <==> InvalidText(premisesText, conclusionText)
    ensures r == Unsupported <==> !InvalidText(premisesText, conclusionText) && !Complete(premisesText, conclusionText)
    ensures r.Proved? || r == NotFound ==>
      Complete(premisesText, conclusionText)
      && r == ProveFrom(Premises(premisesText), Parse(conclusionText), Goals(premisesText, conclusionText))
  {
    var ps := Premises(premisesText);
    var conclusion := Parse(conclusionText);
    if ps == [] || conclusion.Missing? then InvalidInput
    else if !(AllWellFormed(ps) && WellFormed(conclusion)) then Unsupported
    else ProveFrom(ps, conclusion, Goals(premisesText, conclusionText))
  }

  /**
    A found proof is sound: under every valuation that makes all premises
    true, every line of the proof, and so the conclusion, is true.
   */
  lemma SolveSound(premisesText: string, conclusionText: string, v: Valuation)
    ensures Solve(premisesText, conclusionText).Proved? ==>
      AllWellFormed(Premises(premisesText)) && WellFormed(Parse(conclusionText))
    ensures Solve(premisesText, conclusionText).Proved? && AllTrue(Premises(premisesText), v) ==>
      var p := Solve(premisesText, conclusionText).path;
      && Eval(Parse(conclusionText), v)
      && forall k :: 0 <= k < |p| ==> WellFormed(p[k].node) && Eval(p[k].node, v)
  {
    var ps := Premises(premisesText);
    var r := Solve(premisesText, conclusionText);
    if r.Proved? && AllTrue(ps, v) {
      var p := r.path;
      ExtendsSound(PremiseSteps(ps), p, Goals(premisesText, conclusionText), v);
      var k :| 0 <= k < |p| && p[k].node == Parse(conclusionText);
    }
  }

  // ---------------------------------------------------------------------
  // Shaping the result
  // ---------------------------------------------------------------------

  function DigitChar(d: nat): char
    requires d < 10
  {
    "0123456789"[d]
  }

  predicate IsDigit(c: char)
  {
    '0' <= c <= '9'
  }

  /** The number a string of decimal digits denotes. */
  function DigitsValue(s: string): nat
    requires forall i :: 0 <= i < |s| ==> IsDigit(s[i])
  {
    if s == [] then 0 else assert IsDigit(s[|s| - 1]); 10 * DigitsValue(s[..|s| - 1]) + (s[|s| - 1] as int - '0' as int) as nat
  }

  /** The decimal form JavaScript gives a nonnegative integer. */
  function NatToString(n: nat): (r: string)
    ensures |r| >= 1 && forall i :: 0 <= i < |r| ==> IsDigit(r[i])
    ensures DigitsValue(r) == n
    ensures |r| == 1 || r[0] != '0'
  {
    if n < 10 then [DigitChar(n)]
    else
      var r := NatToString(n / 10) + [DigitChar(n % 10)];
      assert r[..|r| - 1] == NatToString(n / 10);
      r
  }

  /** The decimal form JavaScript gives an integer. */
  function IntToString(i: int): string
  {
    if i < 0 then "-" + NatToString(-i) else NatToString(i)
  }

  /** The `ref` column: empty for a premise, otherwise the cited line numbers in parentheses. */
  function RefText(s: Step): (r: string)
    ensures s.rule == Premise <==> r == []
    ensures s.rule != Premise && s.ref2 == -1 ==> r == "(" + IntToString(s.ref1) + ")"
    ensures s.rule != Premise && s.ref2 != -1 ==> r == "(" + IntToString(s.ref1) + ", " + IntToString(s.ref2) + ")"
  {
    if s.rule == Premise then ""
    else "(" + IntToString(s.ref1) + (if s.ref2 != -1 then ", " + IntToString(s.ref2) else "") + ")"
  }

  /** One line of a successful result. */
  datatype Line = Line(index: nat, expression: string, rule: string, ref: string)

  /** What `solveProof` hands back; `Aborted` is the exception the source throws on incomplete trees. */
  datatype Response = Success(steps: seq<Line>) | Failure(message: string) | Aborted

  const InvalidInputMessage := "Error: Invalid Input."
  const NotFoundMessage := "Proof not found within search limits."

  /**
    Number the lines from 1 and print each formula, rule and reference. The
    pointwise ensures only describes the map; `RenderProved` and
    `SolveProofSound` state what a rendered proof means.
   */
  function Render(path: seq<Step>): (r: seq<Line>)
    requires StepsWellFormed(path)
    ensures |r| == |path|
    ensures forall k :: 0 <= k < |r| ==>
      r[k] == Line(k + 1, ToString(path[k].node), RuleName(path[k].rule), RefText(path[k]))
  {
    seq(|path|, k requires 0 <= k < |path| => Line(k + 1, ToString(path[k].node), RuleName(path[k].rule), RefText(path[k])))
  }

  /**
    `ref` names one or two distinct lines among the first `n`, as `(a)` or
    `(a, b)` with 1-based line numbers.
   */
  ghost predicate CitesEarlier(ref: string, n: nat)
  {
    || (exists a: nat :: 1 <= a <= n && ref == "(" + NatToString(a) + ")")
    || (exists a: nat, b: nat :: 1 <= a <= n && 1 <= b <= n && a != b
          && ref == "(" + NatToString(a) + ", " + NatToString(b) + ")")
  }

  /** The references of an inferred line lie among the lines before it. */
  predicate CitesBefore(s: Step, k: nat)
  {
    1 <= s.ref1 <= k && (s.ref2 == -1 || (1 <= s.ref2 <= k && s.ref2 != s.ref1))
  }

  /** What the rendering of a found proof shows. */
  ghost predicate RenderedProof(lines: seq<Line>, ps: seq<Node>, conclusion: Node)
    requires AllWellFormed(ps) && WellFormed(conclusion)
  {
    && |ps| <= |lines| <= |ps| + MaxSearchDepth
    && (forall k :: 0 <= k < |ps| ==> lines[k] == Line(k + 1, ToString(ps[k]), "Premise", ""))
    && (forall k :: 0 <= k < |lines| ==> lines[k].index == k + 1)
    && (forall k :: |ps| <= k < |lines| ==> lines[k].rule != "Premise" && CitesEarlier(lines[k].ref, k))
    && exists k :: 0 <= k < |lines| && lines[k].expression == ToString(conclusion)
  }

  /**
    `solveProof`: a failure message for invalid input or an exhausted
    search, otherwise the numbered proof: premises first as `Premise` lines
    with empty references, then inferences citing earlier, 1-based line
    numbers, with a line that prints the conclusion.
   */
  function SolveProof(premisesText: string, conclusionText: string): (r: Response)
    ensures r == Failure(InvalidInputMessage) <==> InvalidText(premisesText, conclusionText)
    ensures r == Aborted <==> !InvalidText(premisesText, conclusionText) && !Complete(premisesText, conclusionText)
    ensures r.Failure? ==> r.message == InvalidInputMessage || r.message == NotFoundMessage
    ensures r == Failure(NotFoundMessage) <==> Solve(premisesText, conclusionText) == NotFound
    ensures r.Success? <==> Solve(premisesText, conclusionText).Proved?
    ensures r.Success? ==>
      && Complete(premisesText, conclusionText)
      && Solve(premisesText, conclusionText).Proved?
      && r.steps == Render(Solve(premisesText, conclusionText).path)
      && RenderedProof(r.steps, Premises(premisesText), Parse(conclusionText))
  {
    match Solve(premisesText, conclusionText)
    case InvalidInput => Failure(InvalidInputMessage)
    case NotFound => Failure(NotFoundMessage)
    case Unsupported => Aborted
    case Proved(p) =>
      RenderProved(premisesText, conclusionText);
      Success(Render(p))
  }

  lemma RenderProved(premisesText: string, conclusionText: string)
    ensures Solve(premisesText, conclusionText).Proved? ==> Complete(premisesText, conclusionText)
    ensures Solve(premisesText, conclusionText).Proved? ==>
      var p := Solve(premisesText, conclusionText).path;
      StepsWellFormed(p) && RenderedProof(Render(p), Premises(premisesText), Parse(conclusionText))
  {
    var r := Solve(premisesText, conclusionText);
    if !r.Proved? { return; }
    var p := r.path;
    var ps := Premises(premisesText);
    var goals := Goals(premisesText, conclusionText);
    assert Extends(PremiseSteps(ps), p, goals);
    forall k | |ps| <= k < |p|
      ensures p[k].rule != Premise && CitesBefore(p[k], k)
    {
      assert Admissible(p[..k], p[k], goals);
    }
    RenderShape(p, ps, Parse(conclusionText));
  }

  /**
    Every line `solveProof` shows is true under every valuation that makes
    all premises true: line `k` prints the formula of step `k` of the path
    the search found, and that formula evaluates to true.
   */
  lemma SolveProofSound(premisesText: string, conclusionText: string, v: Valuation)
    ensures var r := SolveProof(premisesText, conclusionText);
      var q := Solve(premisesText, conclusionText);
      r.Success? && AllTrue(Premises(premisesText), v) ==>
        && q.Proved? && StepsWellFormed(q.path) && |r.steps| == |q.path|
        && forall k :: 0 <= k < |r.steps| ==>
             r.steps[k].expression == ToString(q.path[k].node) && Eval(q.path[k].node, v)
  {
    var r := SolveProof(premisesText, conclusionText);
    if r.Success? && AllTrue(Premises(premisesText), v) {
      SolveSound(premisesText, conclusionText, v);
      var p := Solve(premisesText, conclusionText).path;
      RenderTrue(p, r.steps, v);
    }
  }

  /** Rendering a path of true lines shows, line by line, those true formulas. */
  lemma RenderTrue(p: seq<Step>, lines: seq<Line>, v: Valuation)
    requires StepsWellFormed(p) && lines == Render(p)
    requires forall k :: 0 <= k < |p| ==> Eval(p[k].node, v)
    ensures |lines| == |p|
    ensures forall k :: 0 <= k < |lines| ==> lines[k].expression == ToString(p[k].node) && Eval(p[k].node, v)
  {
  }

  lemma RenderShape(p: seq<Step>, ps: seq<Node>, conclusion: Node)
    requires StepsWellFormed(p) && AllWellFormed(ps) && WellFormed(conclusion)
    requires |ps| <= |p| <= |ps| + MaxSearchDepth
    requires forall k :: 0 <= k < |ps| ==> p[k] == Step(ps[k], Premise, -1, -1)
    requires forall k :: |ps| <= k < |p| ==> p[k].rule != Premise && CitesBefore(p[k], k)
    requires Known(p, conclusion)
    ensures RenderedProof(Render(p), ps, conclusion)
  {
    var lines := Render(p);
    forall k | 0 <= k < |ps|
      ensures lines[k] == Line(k + 1, ToString(ps[k]), "Premise", "")
    {
      RenderLine(p, k);
    }
    forall k | |ps| <= k < |lines|
      ensures lines[k].rule != "Premise" && CitesEarlier(lines[k].ref, k)
    {
      RenderLine(p, k);
    }
    var k :| 0 <= k < |p| && p[k].node == conclusion;
    RenderLine(p, k);
  }

  lemma RenderLine(p: seq<Step>, k: nat)
    requires StepsWellFormed(p) && k < |p|
    ensures Render(p)[k].index == k + 1
    ensures Render(p)[k].expression == ToString(p[k].node)
    ensures p[k].rule == Premise ==> Render(p)[k].rule == "Premise" && Render(p)[k].ref == ""
    ensures p[k].rule != Premise ==> Render(p)[k].rule != "Premise"
    ensures p[k].rule != Premise && CitesBefore(p[k], k) ==> CitesEarlier(Render(p)[k].ref, k)
  {
    if p[k].rule != Premise && CitesBefore(p[k], k) {
      RefCites(p[k], k);
    }
  }

  /** The `ref` text of an inferred line citing lines among the first `k` names them. */
  lemma RefCites(s: Step, k: nat)
    requires s.rule != Premise && CitesBefore(s, k)
    ensures CitesEarlier(RefText(s), k)
  {
    var a: nat := s.ref1;
    assert IntToString(s.ref1) == NatToString(a);
    if s.ref2 == -1 {
      assert RefText(s) == "(" + NatToString(a) + ")";
    } else {
      var b: nat := s.ref2;
      assert IntToString(s.ref2) == NatToString(b);
      assert RefText(s) == "(" + NatToString(a) + ", " + NatToString(b) + ")";
    }
  }
}
